=== FILE: README.md ===
# idmaker business rules in Dafny

This project models the decision logic of idmaker, a desktop tool that prints
CR80 student ID cards two to an A4 tray sheet. The Dafny files model these parts:

- the millimetre/pixel geometry at 300 DPI, with the CR80, A4 and tray-slot constants (`units.dfy`);
- the `{{KEY}}` placeholder and photo substitution of `renderCard` (`card_render.dfy`);
- the sheet layout under a printer calibration profile, and the PDF export's page loop and file name (`sheet_layout.dfy`);
- photo matching by file stem (`photo_service.dfy`);
- required-field validation and the exception report (`data_service.dfy`);
- the main process's handlers over profiles, layouts, batches and students (`store.dfy`);
- the rules of the Print, Individual Preview, Calibration, Layouts and Student Records pages, and of the design canvas (`print_queue.dfy`, `preview.dfy`, `calibration.dfy`, `layouts.dfy`, `student_data.dfy`, `design_canvas.dfy`).

Shared pieces live in `common.dfy`, `text.dfy` and `records.dfy`:

- `Option`, plus `Filter`, `Find` and `Map` with their lemmas;
- ASCII case folding, `includes`, the JavaScript `\s` class and decimal rendering;
- the entity datatypes and JavaScript truthiness.

Modelling choices:

- Lengths are `real`, so the conversions are exact rationals. `Math.round` only fixes the two card pixel constants, 1016 and 638.
- A canvas keeps the integer part of its size, so the sheet is 2480 × 3507 px.
- A student's `data` is a map from column name to cell text. A value is truthy when it is present and not empty.
- Database tables are sequences in row-id order. Ids come from per-table counters.
- Time, `Math.random`, the file dialogs, the directory listing and the photo bytes are all parameters.
- Each user answer to a `confirm` prompt is a boolean input.
- The JSON parse and stringify steps, and fabric's loading of a layout, are function parameters.

## Model

| member | source | states |
|---|---|---|
| Units.MmToPx | src/utils/units.ts:4-6 | the pixel length times 25.4 equals the millimetre length times 300 |
| Units.PxToMm | src/utils/units.ts:8-10 | the millimetre length times 300 equals the pixel length times 25.4 |
| Units.MmPxRoundTrip | src/utils/units.ts:4-10 | converting millimetres to pixels and back gives the original length |
| Units.PxMmRoundTrip | src/utils/units.ts:4-10 | converting pixels to millimetres and back gives the original pixel count |
| Units.Round | src/utils/units.ts:15-16 | `Math.round`: the nearest integer, with halves rounded up |
| Units.MmToPxLinear | src/utils/units.ts:4-6 | the conversion maps 0 to 0 and preserves sums and differences |
| Units.MmToPxIncreasing | src/utils/units.ts:4-6 | a < b exactly when mmToPx(a) < mmToPx(b) |
| Units.CardWidthPx | src/utils/units.ts:15 | 86 mm is 1015.748 px to within 0.001, and the card width constant rounds to 1016 |
| Units.CardHeightPx | src/utils/units.ts:16 | 54 mm lies between 637.7 and 637.8 px, and the card height constant is 638 |
| Units.SlotAnchors | src/utils/units.ts:19-22 | slot 2 has slot 1's X; its Y is one card height plus the 31.5 mm gap lower, so the pockets do not overlap |
| Units.SlotsInsideA4 | src/utils/units.ts:19-25 | both uncorrected pockets lie inside the 210 × 297 mm page |
| CardRender.LineEnd | src/utils/printService.ts:28 | the first line terminator at or after a position, with none before it |
| CardRender.LastClose | src/utils/printService.ts:28 | the last `}}` in a range, with none after it in the range |
| CardRender.MatchFrom | src/utils/printService.ts:28 | a greedy regex match from a `{{` position: it is a match, and no match from there ends later |
| CardRender.SearchFrom | src/utils/printService.ts:28 | the leftmost match at or after a position; none if no match starts there or later |
| CardRender.PlaceholderKey | src/utils/printService.ts:28-30 | no key exactly when the text has no match; otherwise the key is the non-empty text between the leftmost `{{` and the last `}}` on that line |
| CardRender.SubstituteText | src/utils/printService.ts:26-35 | a placeholder whose key has a truthy value takes that value, with its fill untouched; a missing or empty value keeps the text and turns it red; objects that are not placeholders, are empty or lack the pattern are unchanged |
| CardRender.PhotoImage | src/utils/printService.ts:40-48 | the replacement image takes the placeholder's left, top, width and height |
| CardRender.KeptAddedSizes | src/utils/printService.ts:25-52 | removed placeholders and added images balance; every added image shows the photo; no kept object is a replaced placeholder |
| CardRender.RenderKeepsCount | src/utils/printService.ts:39-51 | rendering keeps the object count; with a photo, no photo placeholder survives |
| CardRender.RenderWithoutPhoto | src/utils/printService.ts:25-52 | without photo data, rendering is the text rule applied to every object in place |
| CardRender.KeptWithoutPhoto | src/utils/printService.ts:25-36 | without photo data every object stays in place, text-substituted |
| CardRender.AddedWithoutPhoto | src/utils/printService.ts:39 | without photo data no image is added |
| CardRender.AddedImagesMatchPlaceholders | src/utils/printService.ts:39-51 | with photo data, the images appended are one per photo placeholder, in order, each with its placeholder's left, top, width and height (the scale the photo is drawn at is left out) |
| CardRender.NamePlaceholder | src/hooks/useCanvasActions.ts:18 | the designer's default tag `{{NAME}}` has key NAME |
| CardRender.GreedyKey | src/utils/printService.ts:28 | `{{A}}{{B}}` yields the single key `A}}{{B` |
| SheetLayout.SheetSize | src/utils/printService.ts:76-77 | the sheet canvas is 2480 × 3507 px, the integer parts of mmToPx(210) and mmToPx(297) |
| SheetLayout.Slot1Box | src/utils/printService.ts:90-97 | slot 1 is drawn at mmToPx(SLOT1_X + offsetX), mmToPx(SLOT1_Y + offsetY) |
| SheetLayout.Slot2Box | src/utils/printService.ts:100-108 | slot 2 is drawn at slot 1's X and at mmToPx(SLOT2_Y + offsetY + slot2YOffset) |
| SheetLayout.SlotGeometry | src/utils/printService.ts:90-108 | both slots share the left edge and are 1016·scaleX × 638·scaleY; slot 2 is mmToPx(card height + gap + correction) below slot 1 |
| SheetLayout.UncorrectedSlotsFit | src/utils/printService.ts:90-108 | with zero offsets and unit scale, both cards lie on the sheet, one above the other without overlap |
| SheetLayout.RenderA4Sheet | src/utils/printService.ts:67-112 | the sheet always has student 1's card in slot 1; a second card is rendered and placed in slot 2 only when a second student exists |
| SheetLayout.PrintTestSheet | src/utils/printService.ts:141-167 | the test sheet outlines exactly two slots |
| SheetLayout.TestSheetMatchesCards | src/utils/printService.ts:157-164 | the test sheet's outlines are exactly where a full sheet places its two cards, on a canvas of the same size |
| SheetLayout.ApplyOp | src/utils/printService.ts:132-136 | a document always keeps at least one page |
| SheetLayout.RunOps | src/utils/printService.ts:115-136 | a document built by any run of page operations has at least one page |
| SheetLayout.OnePagePerSheet | src/utils/printService.ts:132-136 | adding a page before every sheet except the first gives one page per sheet, page k holding sheet k |
| SheetLayout.SquashRuns | src/utils/printService.ts:138 | the result has no whitespace and is no longer than the input |
| SheetLayout.ReplaceWhitespaceRuns | src/utils/printService.ts:138 | no whitespace is left in the title |
| SheetLayout.SquashKeepsPlainText | src/utils/printService.ts:138 | a title without whitespace is unchanged |
| SheetLayout.SquashWordPrefix | src/utils/printService.ts:138 | a leading word without whitespace is copied as is, and the rest is converted separately |
| SheetLayout.SquashInsideRun | src/utils/printService.ts:138 | inside a run, more whitespace adds nothing: `\s+` becomes one `_` however long the run |
| SheetLayout.SquashOneRun | src/utils/printService.ts:138 | a word, a whitespace run and the rest become the word, one `_`, and the rest converted |
| SheetLayout.PdfFileName | src/utils/printService.ts:138 | the file name is the title with each whitespace run turned into one `_`, then `_`, the timestamp's decimal digits and `.pdf`; so it ends in `.pdf` and has no whitespace before it |
| SheetLayout.ExportToPdf | src/utils/printService.ts:114-139 | the saved PDF has one page per sheet, page k holding sheet k, and its file name is built from the title, or from "Student IDs" when no title is given |
| SheetLayout.PlainTitleFileName | src/utils/printService.ts:166 | a title without whitespace, such as the test sheet's, appears unchanged, followed by `_<timestamp>.pdf` |
| PhotoService.Basename | src/utils/photoService.ts:30 | the suffix after the last `/` or `\`, with no separator in it |
| PhotoService.Stem | src/utils/photoService.ts:30 | the prefix before the first `.`, with no dot in it |
| PhotoService.BasenameOfPlainName | src/utils/photoService.ts:30 | a name without separators is its own basename |
| PhotoService.MatchPhoto | src/utils/photoService.ts:28-33 | undefined exactly when no path's stem equals the admission number; otherwise an element of the list whose stem matches, with no earlier element matching |
| PhotoService.MatchFile | electron/ipc.ts:93 | the first listed file whose stem equals the admission number; none exactly when there is no such file |
| PhotoService.MatchersAgreeOnListings | electron/ipc.ts:93 | on plain file names, the page's matcher and the handler's matcher return the same file |
| DataService.ValidateStudentData | src/utils/dataService.ts:11-17 | valid exactly when nothing is missing; a field is missing exactly when it is required and its value is falsy; repeated required fields stay repeated |
| DataService.NothingRequired | src/utils/dataService.ts:12-16 | an empty required list is always valid |
| DataService.MissingFieldsInOrder | src/utils/dataService.ts:12 | the missing fields keep the required list's order |
| DataService.ExceptionRows | src/utils/dataService.ts:19-24 | one row per failed student, in order, with Name, ADM_NO and Reason from data.NAME, admNo and exceptionReason |
| Records.ValueOr | src/utils/printService.ts:31 | `value \|\| fallback`: the value when it is truthy, the fallback otherwise |
| Records.PickDefault | src/pages/Print.tsx:32 | the first profile flagged default, else the first profile; nothing only for an empty list |
| Records.FirstDefault | src/pages/Print.tsx:32 | the index of the first default profile, with no default before it |
| Store.InitialStore | electron/db.ts:53-59 | a fresh store is well formed; its only profile is 'Default Epson Tray', flagged default, with zero offsets, zero slot-2 correction and unit scales; it has no layouts, batches or students |
| Store.SaveProfile | electron/ipc.ts:13-26 | with a truthy id, that row takes the new fields and the id list and row count stay the same; without one, a row with a fresh id is appended |
| Store.SaveProfileWellFormed | electron/ipc.ts:13-26 | saving a profile keeps the ids unique and ordered |
| Store.InsertNewestFirst | electron/ipc.ts:31 | inserting into a newest-first list keeps it newest first and adds exactly that batch |
| Store.SortNewestFirst | electron/ipc.ts:31 | the result is newest first and a permutation of the input |
| Store.GetBatches | electron/ipc.ts:30-32 | every batch exactly once, ordered by createdAt, newest first |
| Store.GetStudents | electron/ipc.ts:34-36 | exactly the students whose batchId equals the given id |
| Store.AllStudents | src/pages/StudentData.tsx:23 | every student row |
| Store.AllStudentsIsTable | src/pages/StudentData.tsx:23 | listing all students gives the table as it is, in row order |
| Store.NullBatchSelectsNothing | electron/ipc.ts:35 | a query for the NULL batch returns no student |
| Store.UpdateStudent | electron/ipc.ts:38-40 | row id gets the new data and status; every other row and field is unchanged |
| Store.UpdateStudentWellFormed | electron/ipc.ts:38-40 | updating a student keeps the store well formed |
| Store.SaveLayout | electron/ipc.ts:47-49 | appends one layout under a fresh id; nothing else changes |
| Store.DeleteLayout | src/pages/Layouts.tsx:75 | removes exactly the layouts with that id |
| Store.AdmNoFor | electron/ipc.ts:74 | ADM_NO if truthy, else admNo if truthy, else `TEMP-` and the random text |
| Store.ImportedStudents | electron/ipc.ts:72-77 | one pending student per row, in order, in the new batch, with the row as its data |
| Store.ImportExcel | electron/ipc.ts:52-80 | a cancelled dialog changes nothing; otherwise one new batch named after the file and date, one student per row, and count = the number of rows |
| Store.ImportWellFormed | electron/ipc.ts:65-77 | an import keeps the store well formed |
| Store.AppendedBatchOk | electron/ipc.ts:64-66 | the new batch, under the next id, keeps the batch ids unique and ordered |
| Store.AppendedStudentsOk | electron/ipc.ts:72-77 | students inserted with increasing fresh ids into the new batch keep the student table well formed |
| Store.ImportCreatesOnePerRow | electron/ipc.ts:72-79 | afterwards the new batch holds exactly the imported students, one per row, in row order |
| Store.JoinPath | electron/ipc.ts:95 | the joined path ends with the file name |
| Store.LinkPhoto | electron/ipc.ts:92-97 | only the photo path can change |
| Store.MatchPhotos | electron/ipc.ts:83-102 | a missing directory gives 0 and no change; otherwise each batch student with a file gets dir+file, and the count equals those students and is at most the batch size |
| Store.MatchedAtMostBatch | electron/ipc.ts:86-101 | the matched count never exceeds the number of batch students |
| Store.LinkPhotoFrame | electron/ipc.ts:92-97 | other batches' students and unmatched students are untouched; a matched student gets dir joined with the first file whose stem is its admission number |
| PrintQueue.MissingPhotoIssues | src/pages/Print.tsx:70-71 | the "Missing photo" issues are one per student without a photo, in order |
| PrintQueue.MissingInHead | src/pages/Print.tsx:70-72 | one student adds a "Missing photo" issue exactly when it has no photo |
| PrintQueue.DuplicateStep | src/pages/Print.tsx:72-73 | one step adds a duplicate issue exactly when the admission number was seen |
| PrintQueue.AdmNosCons | src/pages/Print.tsx:72-73 | the admission numbers of a batch are the first student's plus the rest's |
| PrintQueue.DuplicateCount | src/pages/Print.tsx:68-74 | duplicates plus distinct numbers seen equal students plus the numbers seen before |
| PrintQueue.DuplicateIssuesCount | src/pages/Print.tsx:68-74 | the number of "Duplicate ADM_NO" issues is the student count minus the number of distinct admission numbers |
| PrintQueue.SheetCount | src/pages/Print.tsx:97 | ceil(n/2): twice it is n or n + 1 |
| PrintQueue.Pairs | src/pages/Print.tsx:97-99 | ceil(n/2) sheets; sheet i holds student 2i, and student 2i+1 exactly when it exists |
| PrintQueue.EmptySecondSlot | src/pages/Print.tsx:97-105 | slot 2 is empty only on the last sheet, and only when n is odd |
| PrintQueue.PairsFlatten | src/pages/Print.tsx:97-99 | reading the sheets slot by slot gives back the batch, so every student is on exactly one slot |
| PrintQueue.FailedListAppend | src/pages/Print.tsx:101-107 | the failed list of a concatenation is the concatenation of the failed lists |
| PrintQueue.FailedFromSheets | src/pages/Print.tsx:101-107 | collecting failures sheet by sheet equals collecting them over the flattened students |
| PrintQueue.FailedInPairIsList | src/pages/Print.tsx:101-107 | one sheet's failures are the failed list of its one or two students, in slot order |
| PrintQueue.FailedStudentsAreMissingPhotos | src/pages/Print.tsx:101-107 | each student without a photo appears once, with reason "Missing Photo", in batch order, and no one else does |
| PrintQueue.PrevPair | src/pages/Print.tsx:181-183 | disabled at 0; otherwise one pair back |
| PrintQueue.NextPair | src/pages/Print.tsx:192-194 | disabled from the last pair on; otherwise one pair on |
| PrintQueue.PairNavigationInRange | src/pages/Print.tsx:181-194 | the reset to 0 and both buttons keep 0 ≤ index ≤ max(0, ceil(n/2) − 1) |
| PrintQueue.SelectedProfileId | src/pages/Print.tsx:32 | no profiles gives no selection; with a default, the first default's id, or the first profile's id when that id is falsy; with no default, the first profile's id |
| PrintQueue.ConfirmPrompt | src/pages/Print.tsx:85 | the prompt gives the issue count, shows the first five messages at most, and adds "..." exactly when there are more |
| PrintQueue.PairSheet | src/pages/Print.tsx:62 | a pair's sheet has one card per student in it, slot 1 at the profile's slot 1 |
| PrintQueue.PreviewSheet | src/pages/Print.tsx:52-64 | a preview needs students, both selections, a pair index on the students, and both rows found; it shows one or two cards as the pair has |
| PrintQueue.PrintAll | src/pages/Print.tsx:79-127 | it does not start without students or selections; it stops when there are issues and the user declines; a missing profile or layout ends in the error alert; otherwise there are ceil(n/2) sheets, the failed list is the students without photos, a report is made exactly when there are failures and the user asks, its rows are the exception rows of the failed list, and the title is the batch's name or "Batch Export" when there is no batch or its name is empty |
| PrintQueue.PreviewMatchesExport | src/pages/Print.tsx:55-62 | the preview of pair i is the sheet the export prints for pair i |
| Preview.PreviewStudents | src/pages/PreviewIndividual.tsx:36-37 | keeps exactly the students not marked failed and with a photo path |
| Preview.PreviewStudentsInOrder | src/pages/PreviewIndividual.tsx:36 | the filter keeps the original order |
| Preview.ChooseLayout | src/pages/PreviewIndividual.tsx:40-50 | the batch's layoutId if the batch exists and has one; otherwise the first layout; otherwise the selection is unchanged |
| Preview.FirstLoadLayout | src/pages/PreviewIndividual.tsx:40-50 | on first load nothing is selected exactly when the batch has no layout and there are no layouts |
| Preview.Extension | src/pages/PreviewIndividual.tsx:75 | the text after the last `.`, or the whole path when there is no dot |
| Preview.ExtensionOfDotted | src/pages/PreviewIndividual.tsx:75 | the extension of `stem.ext` is `ext` |
| Preview.MimeFor | src/pages/PreviewIndividual.tsx:75-76 | image/png exactly when the lower-cased extension is "png", image/jpeg otherwise |
| Preview.MimeOfExtension | src/pages/PreviewIndividual.tsx:75-76 | a file `stem.ext` is PNG exactly when ext is "png" in any letter case |
| Preview.PhotoDataUrl | src/pages/PreviewIndividual.tsx:75-77 | the photo's `data:` URL carries image/png for a `.png` path in any letter case, image/jpeg otherwise, then the base64 text |
| Preview.PreviewCard | src/pages/PreviewIndividual.tsx:62-89 | a card needs a student at the index and a found layout; it has one object per layout object; with a photo read, no photo placeholder remains and the card ends with one image per photo placeholder, in order, at that placeholder's box, showing the photo's `data:` URL; without one, the card is the text rule applied in place |
| Preview.AdjustmentsOr | src/pages/PreviewIndividual.tsx:85 | missing adjustments default to zoom 1, x 0, y 0 |
| Preview.UpdateAdjustment | src/pages/PreviewIndividual.tsx:126-130 | sets only that adjustment key; the other keys and the record's fields are unchanged |
| Preview.UpdateAdjustmentOverwrites | src/pages/PreviewIndividual.tsx:126-130 | setting a key twice keeps only the second value |
| Preview.Zoom | src/pages/PreviewIndividual.tsx:370 | the zoom in effect is never 0 |
| Preview.ZoomOut | src/pages/PreviewIndividual.tsx:370 | the decrement subtracts 0.1 when the zoom is at least 0.2 and gives exactly 0.1 below that; the text fields are unchanged |
| Preview.ZoomIn | src/pages/PreviewIndividual.tsx:372 | the increment adds 0.1 to the zoom in effect; when that sum is 0, the stored 0 reads back as 1; the record's fields are unchanged |
| Preview.ZoomInThenOut | src/pages/PreviewIndividual.tsx:370-372 | zooming in then out restores a zoom of at least 0.1 and keeps the fields |
| Preview.SafeName | src/pages/PreviewIndividual.tsx:285 | only `[a-z0-9_]`, the batch name's length, `_` exactly where the name has no ASCII letter or digit (or has `_`), and letters lower-cased |
| Preview.SafeNameIdempotent | src/pages/PreviewIndividual.tsx:285 | a name made only of safe characters is unchanged, so making a name safe twice changes nothing |
| Preview.DownloadName | src/pages/PreviewIndividual.tsx:285-286 | `<safe>_<n>.png`: the safe name, `_`, then digits that read back as index + 1, then `.png` |
| Preview.FirstRecord | src/pages/PreviewIndividual.tsx:240-241 | goes to record 0 |
| Preview.PrevRecord | src/pages/PreviewIndividual.tsx:247-248 | disabled at 0; otherwise one record back |
| Preview.NextRecord | src/pages/PreviewIndividual.tsx:264-265 | disabled from n − 1 on; otherwise one record on |
| Preview.LastRecord | src/pages/PreviewIndividual.tsx:271-272 | disabled from n − 1 on; otherwise goes to n − 1 |
| Preview.RecordNavigationInRange | src/pages/PreviewIndividual.tsx:240-276 | for n ≥ 1, all four buttons keep 0 ≤ index ≤ n − 1 |
| Calibration.LoadProfiles | src/pages/Calibration.tsx:26-36 | the first profile flagged default, with none flagged before it; else the first profile; with no profiles, 'New Profile' with offsets 0, scales 1 and isDefault 1 |
| Calibration.UpdateProfile | src/pages/Calibration.tsx:51-55 | a no-op without a selection; otherwise only the edited field changes, to the given value |
| Calibration.UpdateProfileLastWins | src/pages/Calibration.tsx:51-55 | editing the same field twice keeps the second value |
| Calibration.UpdateProfileCommutes | src/pages/Calibration.tsx:51-55 | edits of two different fields give the same profile in either order |
| Calibration.OrZero | src/pages/Calibration.tsx:164 | `parseFloat(x) \|\| 0`: an unparsable input becomes 0 |
| Calibration.WizardOffsetX | src/pages/Calibration.tsx:164 | the left shift sets only offsetX; an unparsable entry sets 0 |
| Calibration.WizardOffsetY | src/pages/Calibration.tsx:173 | the up/down shift sets only offsetY; an unparsable entry sets 0 |
| Calibration.WizardSlot2Y | src/pages/Calibration.tsx:184 | the slot 2 error sets only slot2YOffset; an unparsable entry sets 0 |
| Calibration.ScaleFromError | src/pages/Calibration.tsx:195-198 | scale · (100 + e) = 100; e = 0 or unparsable gives 1; e > 0 gives a scale in (0, 1); −100 < e < 0 gives a scale above 1 |
| Calibration.ScaleRecoversError | src/pages/Calibration.tsx:197 | 100/scale − 100 gives back the measured error |
| Calibration.WizardScaleX | src/pages/Calibration.tsx:195-198 | the width error sets scaleX to the corrective scale |
| Calibration.WizardScaleY | src/pages/Calibration.tsx:205-208 | the height error sets scaleY to the corrective scale |
| Calibration.SaveSelected | src/pages/Calibration.tsx:43-49 | nothing without a selection; an unsaved profile is appended with a fresh id; for a saved one, the rows with its id become the selection and every other row, layout, batch and student stays |
| Calibration.SaveSelectedWellFormed | src/pages/Calibration.tsx:43-49 | saving the selection keeps the profile ids unique and ordered, and the store well formed |
| Calibration.SeededTrayFits | electron/db.ts:53-59 | on a fresh store the calibration page opens the seeded tray, and both of its card slots lie on the A4 sheet, slot 1 above slot 2 without overlap |
| Calibration.SameProfileAsPrint | src/pages/Calibration.tsx:31 | the calibration page opens the profile whose id the print page selects (Print.tsx line 32) |
| Calibration.TraySlotsRelation | src/pages/Calibration.tsx:228-246 | slot 2's left is slot 1's; its top is SLOT2_Y − SLOT1_Y + slot2YOffset lower; both are the same size |
| Calibration.TrayMatchesSheet | src/pages/Calibration.tsx:228-246 | the preview's slot corners, converted to pixels, are where the printed sheet draws the cards |
| Layouts.FilterLayouts | src/pages/Layouts.tsx:114-116 | keeps exactly the layouts whose lower-cased name contains the lower-cased term |
| Layouts.FilterLayoutsInOrder | src/pages/Layouts.tsx:114-116 | the search keeps the library's order |
| Layouts.EmptySearchKeepsAll | src/pages/Layouts.tsx:114-116 | an empty term keeps every layout |
| Layouts.Rename | src/pages/Layouts.tsx:71-77 | nothing happens unless the new name is non-empty and different; otherwise the result is the old layouts minus the old id plus a copy with the new name and the same content |
| Layouts.RenameReplaces | src/pages/Layouts.tsx:72-75 | in a well-formed store the copy is present under a fresh id, the old id is gone and every other layout stays |
| Layouts.RenamedLayoutIsFound | src/pages/Layouts.tsx:74-77 | after a rename, searching for the new name finds the copy |
| Layouts.ImportNoticeFor | src/pages/Layouts.tsx:91-101 | the library reloads exactly when the imported type is 'layout'; nothing is announced without a result |
| StudentData.LoadRecordsAsWritten | src/pages/StudentData.tsx:22-24 | the page's load as written lists no student at all |
| StudentData.RecordsPageListsNothing | src/pages/StudentData.tsx:22-24 | with one student in the store, the page as written still lists nothing |
| StudentData.LoadRecords | src/pages/StudentData.tsx:22-24 | the intended load lists the whole student table |
| StudentData.FilterStudents | src/pages/StudentData.tsx:44-47 | keeps exactly the students whose lower-cased admNo or NAME (missing NAME as '') contains the lower-cased term |
| StudentData.FilterStudentsInOrder | src/pages/StudentData.tsx:44-47 | the search keeps the table's order |
| StudentData.EmptySearchKeepsAllStudents | src/pages/StudentData.tsx:44-47 | an empty term keeps every student |
| StudentData.StartEdit | src/pages/StudentData.tsx:27-30 | the edited id is the student's id and the buffer is that student's data as JSON text |
| StudentData.TypeText | src/pages/StudentData.tsx:84 | typing changes the buffer only |
| StudentData.CancelEdit | src/pages/StudentData.tsx:111 | cancelling leaves edit mode |
| StudentData.SaveEdit | src/pages/StudentData.tsx:32-42 | a no-op when not editing; unparsable JSON alerts and leaves the store and edit state unchanged; otherwise the edited row becomes itself with the parsed data and status 'pending', every other row, table and id counter is unchanged, and edit mode ends |
| StudentData.EditWithoutChangesKeepsData | src/pages/StudentData.tsx:27-42 | opening a row and saving it untouched keeps its data and marks it pending |
| StudentData.RowFor | src/pages/StudentData.tsx:88-103 | Linked exactly when a photo path is present, else Missing; Printed exactly when the status is 'printed', else Pending; NAME or 'N/A' |
| StudentData.Table | src/pages/StudentData.tsx:77-103 | over the loaded records, one row per record matching the search, in order; an empty search gives one row per record |
| StudentData.TableAsWrittenIsEmpty | src/pages/StudentData.tsx:22-24 | over the load as written the table is always empty; over the intended load, an empty search lists every student |
| DesignCanvas.ZoomToCenter | src/components/DesignCanvas.tsx:28-48 | a no-op for a zero-sized container; otherwise the largest zoom up to 2 at which the card and 60 px padding fit, with the card centred |
| DesignCanvas.FitLeavesPadding | src/components/DesignCanvas.tsx:30-43 | at least the padding, scaled, separates the card from each edge |
| DesignCanvas.ClampZoom | src/components/DesignCanvas.tsx:59-60 | a zoom above 10 becomes 10, one below 0.01 becomes 0.01, and one inside that range is unchanged |
| DesignCanvas.ZoomToPoint | src/components/DesignCanvas.tsx:61 | the canvas point under the pointer stays under it |
| DesignCanvas.Wheel | src/components/DesignCanvas.tsx:54-64 | ignored without Alt; with Alt the new zoom is the old zoom times the wheel factor, clamped to [0.01, 10], and the pointer's canvas point is fixed |
| DesignCanvas.WheelKeepsPointerPoint | src/components/DesignCanvas.tsx:61 | the canvas coordinate under the pointer is the same before and after the wheel |
| DesignCanvas.MouseDown | src/components/DesignCanvas.tsx:70-79 | Alt or the middle button starts a drag and turns selection off; any other press changes nothing |
| DesignCanvas.MouseMove | src/components/DesignCanvas.tsx:81-93 | while dragging, the view moves by the pointer's movement; otherwise nothing changes |
| DesignCanvas.MouseUp | src/components/DesignCanvas.tsx:95-101 | ends a drag and turns selection back on |
| DesignCanvas.DragTranslation | src/components/DesignCanvas.tsx:81-93 | over any run of moves, the total translation equals the pointer's total displacement, and the zoom is unchanged |
| DesignCanvas.MovesWithoutDrag | src/components/DesignCanvas.tsx:82 | moves without a drag change nothing |
| DesignCanvas.PanGesture | src/components/DesignCanvas.tsx:70-101 | a press, drag and release restores selection and moves the view by the pointer's displacement |
| DesignCanvas.EnsureGuides | src/components/DesignCanvas.tsx:104-152 | old guides are removed; the card background goes to the back, the safe-margin frame to the front, and the other objects stay in order: exactly two guides |
| DesignCanvas.EnsureGuidesIdempotent | src/components/DesignCanvas.tsx:104-152 | calling it again changes nothing |
| DesignCanvas.SafeMarginInset | src/components/DesignCanvas.tsx:133-137 | the frame is inset by the margin on all four sides, and has positive size when 2·margin is less than the card height |

## Left out

- The drawing itself is not modelled: fabric, canvas, jsPDF, XLSX and smartcrop calls, including `drawImage`, `processPhoto`, `parseExcel` and the PDF/XLSX writing. Only the decisions around those calls are. The PDF is modelled as its sequence of `addPage`/`addImage` calls. Loading layout JSON is a function parameter.
- IEEE floating point, NaN and Infinity are not modelled; lengths are exact reals.
  - `parseFloat` is a parsed `Option<real>`.
  - The parameter tab stores NaN for unparsable text; the model takes the parsed value.
  - The wheel factor `0.999 ** deltaY` is an arbitrary real.
- Calibration.ScaleFromError: at an error of exactly −100 the source stores Infinity (100 / 0); the model returns no scale and leaves the profile unchanged.
- `toLowerCase` is modelled on ASCII letters only; other characters keep their case.
- Preview.SafeName: text is a sequence of Unicode scalar values, not UTF-16 code units. A character outside the Basic Multilingual Plane, such as an emoji, is one `_` in the model. The source's regular expression sees two code units there and writes `__`.
- CardRender.PhotoImage: the image's `scaleX`/`scaleY` of placeholder width over image width (printService.ts lines 46-47) are not modelled, since the photo's pixel size is not part of the model. The image object takes the placeholder's box; the size the photo is then drawn at is left out.
- `path.join` is modelled as putting a single `/` between the directory and the file. There is no `..` or `.` normalisation and no Windows separator.
- SQL is not modelled. The store is a set of sequences with id counters. `createdAt` and the import date are parameters.
- The JSON text of `data` is not modelled: a student's data is a string map. `JSON.parse` and `JSON.stringify` are function parameters.
  - The preview's `_adjustments` and `_manualPhoto` entries are not part of the stored data.
  - The preview's edit-and-save path is not modelled separately; it is `update-student` with status 'pending'.
- React state scheduling, `await` ordering, toasts and the `isGenerating` flag are not modelled. Confirm prompts are boolean inputs. The rename and delete modals are not modelled.
- The channels the pages call but `electron/ipc.ts` does not register are not modelled beyond what they need:
  - `delete-layout` removes the layouts with that id, as the rename uses it. Layouts.Rename and Layouts.RenameReplaces hold under that handler. As the code stands, the call rejects once the copy is saved: the page reports "Failed to rename layout" and both layouts remain.
  - `update-student-photo`, `open-file`, `open-directory`, `read-photo-sync`, `export-batch-wid` and `import-batch-wid` are not modelled.
  - The `.wid` import is reduced to the type it reports.
- `read-photo` is a parameter giving the photo's base64 text, or none.
- The individual preview passes an `adjustments` argument to `renderCard`, whose signature ignores it. The model renders without adjustments, as the code does.
- `SAFE_MARGIN_PX` is imported by the design canvas, but `src/utils/units.ts` does not export it. It is a parameter of the guide functions. DesignCanvas.SafeMarginInset therefore describes a margin the program as written never has: under ES-module linking the missing export is a load-time error, and a bundler that tolerates it gives the margin frame `NaN` sizes. The model states the frame the code evidently intends for a given margin.
- The batch export and the print preview never pass photo data to the sheet renderer. The model does the same, so photo placeholders survive on printed sheets.
- The sheet canvas size is the integer part of `mmToPx`, because canvas dimensions are integers.
- The following are not modelled; they are I/O or glue with no rule to state:
  - verification/verify_design.py;
  - the window bootstrap;
  - routing;
  - the Batches and Design pages;
  - the modal components.

## Findings

| source | as written | input that shows it | evidently intended | confidence | as-written member | corrected member |
|---|---|---|---|---|---|---|
| src/pages/StudentData.tsx:23 | The records page asks `get-students` for batch `null`. The handler's `WHERE batchId = ?` compares with NULL, which no row satisfies. | any store with at least one student, such as the seeded store plus one student row | list every student ("fetching all") | not executed | `StudentData.LoadRecordsAsWritten` (with `StudentData.RecordsPageListsNothing`) | `StudentData.LoadRecords` |

=== FILE: calibration.dfy ===
/** The calibration page: choosing the profile to edit, editing one field
    at a time, the measuring wizard's inputs and the millimetre tray
    preview. */
module Calibration {
  import opened Common
  import opened Units
  import opened Records
  import opened CardRender
  import opened SheetLayout
  import opened Store
  import opened PrintQueue

  /** The profile shown when the store has none. */
  const NEW_PROFILE: Profile := Profile(None, "New Profile", 0.0, 0.0, 0.0, 1.0, 1.0, 1)

  /** `loadProfiles`: the first default, else the first profile; a fresh
      unsaved profile when there are none. */
  function LoadProfiles(profiles: seq<Profile>): (p: Profile)
    ensures |profiles| > 0 ==> p in profiles
    ensures |profiles| > 0 && (exists k :: 0 <= k < |profiles| && IsDefaultProfile(profiles[k])) ==>
              IsDefaultProfile(p)
              && exists k :: 0 <= k < |profiles| && p == profiles[k]
                   && forall j :: 0 <= j < k ==> !IsDefaultProfile(profiles[j])
    ensures |profiles| > 0 && (forall k :: 0 <= k < |profiles| ==> !IsDefaultProfile(profiles[k])) ==>
              p == profiles[0]
    ensures |profiles| == 0 ==>
              (p.id.None? && p.name == "New Profile"
               && p.offsetX == 0.0 && p.offsetY == 0.0 && p.slot2YOffset == 0.0
               && p.scaleX == 1.0 && p.scaleY == 1.0 && p.isDefault == 1)
  {
    if |profiles| > 0 then PickDefault(profiles).value else NEW_PROFILE
  }

  /** One field of the profile form. */
  datatype ProfileEdit =
    | Name(name: string)
    | OffsetX(offsetX: real)
    | OffsetY(offsetY: real)
    | Slot2YOffset(slot2YOffset: real)
    | ScaleX(scaleX: real)
    | ScaleY(scaleY: real)

  function Apply(p: Profile, e: ProfileEdit): Profile {
    match e
    case Name(v) => p.(name := v)
    case OffsetX(v) => p.(offsetX := v)
    case OffsetY(v) => p.(offsetY := v)
    case Slot2YOffset(v) => p.(slot2YOffset := v)
    case ScaleX(v) => p.(scaleX := v)
    case ScaleY(v) => p.(scaleY := v)
  }

  /** `updateProfile(field, value)`: nothing without a selection; otherwise
      that one field takes the value and the rest of the profile stays. */
  function UpdateProfile(sel: Option<Profile>, e: ProfileEdit): (r: Option<Profile>)
    ensures sel.None? <==> r.None?
    ensures r.Some? ==> r.value.id == sel.value.id && r.value.isDefault == sel.value.isDefault
    ensures r.Some? ==> (r.value.name == sel.value.name || e.Name?)
                        && (r.value.offsetX == sel.value.offsetX || e.OffsetX?)
                        && (r.value.offsetY == sel.value.offsetY || e.OffsetY?)
                        && (r.value.slot2YOffset == sel.value.slot2YOffset || e.Slot2YOffset?)
                        && (r.value.scaleX == sel.value.scaleX || e.ScaleX?)
                        && (r.value.scaleY == sel.value.scaleY || e.ScaleY?)
    ensures r.Some? && e.Name? ==> r.value.name == e.name
    ensures r.Some? && e.OffsetX? ==> r.value.offsetX == e.offsetX
    ensures r.Some? && e.OffsetY? ==> r.value.offsetY == e.offsetY
    ensures r.Some? && e.Slot2YOffset? ==> r.value.slot2YOffset == e.slot2YOffset
    ensures r.Some? && e.ScaleX? ==> r.value.scaleX == e.scaleX
    ensures r.Some? && e.ScaleY? ==> r.value.scaleY == e.scaleY
  {
    if sel.None? then None else Some(Apply(sel.value, e))
  }

  /** Editing a field twice keeps the last value. */
  lemma UpdateProfileLastWins(sel: Option<Profile>, e1: ProfileEdit, e2: ProfileEdit)
    ensures e1.Name? == e2.Name? && e1.OffsetX? == e2.OffsetX? && e1.OffsetY? == e2.OffsetY?
            && e1.Slot2YOffset? == e2.Slot2YOffset? && e1.ScaleX? == e2.ScaleX? ==>
              UpdateProfile(UpdateProfile(sel, e1), e2) == UpdateProfile(sel, e2)
  {
  }

  /** Edits of different fields commute. */
  lemma UpdateProfileCommutes(sel: Option<Profile>, e1: ProfileEdit, e2: ProfileEdit)
    requires e1.Name? != e2.Name? || e1.OffsetX? != e2.OffsetX? || e1.OffsetY? != e2.OffsetY?
             || e1.Slot2YOffset? != e2.Slot2YOffset? || e1.ScaleX? != e2.ScaleX?
    ensures UpdateProfile(UpdateProfile(sel, e1), e2) == UpdateProfile(UpdateProfile(sel, e2), e1)
  {
  }

  /** `parseFloat(text) || 0`: `None` stands for an unparsable input (NaN). */
  function OrZero(v: Option<real>): (x: real)
    ensures v.None? ==> x == 0.0
    ensures v.Some? ==> x == v.value
  {
    if v.Some? && v.value != 0.0 then v.value else 0.0
  }

  /** The wizard's shift inputs: an unparsable entry sets the offset to 0. */
  function WizardOffsetX(sel: Option<Profile>, v: Option<real>): (r: Option<Profile>)
    ensures r.None? <==> sel.None?
    ensures r.Some? ==> r.value == sel.value.(offsetX := OrZero(v))
    ensures r.Some? && v.None? ==> r.value.offsetX == 0.0
  {
    UpdateProfile(sel, OffsetX(OrZero(v)))
  }

  function WizardOffsetY(sel: Option<Profile>, v: Option<real>): (r: Option<Profile>)
    ensures r.None? <==> sel.None?
    ensures r.Some? ==> r.value == sel.value.(offsetY := OrZero(v))
    ensures r.Some? && v.None? ==> r.value.offsetY == 0.0
  {
    UpdateProfile(sel, OffsetY(OrZero(v)))
  }

  function WizardSlot2Y(sel: Option<Profile>, v: Option<real>): (r: Option<Profile>)
    ensures r.None? <==> sel.None?
    ensures r.Some? ==> r.value == sel.value.(slot2YOffset := OrZero(v))
    ensures r.Some? && v.None? ==> r.value.slot2YOffset == 0.0
  {
    UpdateProfile(sel, Slot2YOffset(OrZero(v)))
  }

  /** The scale that undoes a measured error of `e` mm per 100 mm:
      `100 / (100 + (e || 0))`. An error of -100 mm divides by zero, which
      has no real value. */
  function ScaleFromError(v: Option<real>): (s: Option<real>)
    ensures s.None? <==> OrZero(v) == -100.0
    ensures s.Some? ==> s.value * (100.0 + OrZero(v)) == 100.0
    ensures OrZero(v) == 0.0 ==> s == Some(1.0)
    ensures OrZero(v) > 0.0 ==> s.Some? && 0.0 < s.value < 1.0
    ensures -100.0 < OrZero(v) < 0.0 ==> s.Some? && s.value > 1.0
  {
    var e := OrZero(v);
    if 100.0 + e == 0.0 then None else Some(100.0 / (100.0 + e))
  }

  /** The scale gives back the error it was computed from. */
  lemma ScaleRecoversError(e: real)
    requires e != -100.0
    ensures ScaleFromError(Some(e)).value != 0.0
    ensures 100.0 / ScaleFromError(Some(e)).value - 100.0 == e
  {
  }

  /** The wizard's width and height error inputs. */
  function WizardScaleX(sel: Option<Profile>, v: Option<real>): (r: Option<Profile>)
    ensures ScaleFromError(v).Some? ==> r == UpdateProfile(sel, ScaleX(ScaleFromError(v).value))
    ensures ScaleFromError(v).None? ==> r == sel
  {
    match ScaleFromError(v)
    case Some(s) => UpdateProfile(sel, ScaleX(s))
    case None => sel
  }

  function WizardScaleY(sel: Option<Profile>, v: Option<real>): (r: Option<Profile>)
    ensures ScaleFromError(v).Some? ==> r == UpdateProfile(sel, ScaleY(ScaleFromError(v).value))
    ensures ScaleFromError(v).None? ==> r == sel
  {
    match ScaleFromError(v)
    case Some(s) => UpdateProfile(sel, ScaleY(s))
    case None => sel
  }

  /** `handleSave`: stores the selection (update or insert) when there is
      one. */
  function SaveSelected(st: Store, sel: Option<Profile>): (r: Store)
    ensures sel.None? ==> r == st
    ensures sel.Some? && !IdPresent(sel.value.id) ==>
              r.profiles == st.profiles + [sel.value.(id := Some(st.nextProfileId))]
    ensures sel.Some? ==> r.layouts == st.layouts && r.batches == st.batches && r.students == st.students
    ensures sel.Some? && IdPresent(sel.value.id) ==>
              && |r.profiles| == |st.profiles|
              && (forall i :: 0 <= i < |st.profiles| && st.profiles[i].id == sel.value.id ==>
                    r.profiles[i] == sel.value)
              && (forall i :: 0 <= i < |st.profiles| && st.profiles[i].id != sel.value.id ==>
                    r.profiles[i] == st.profiles[i])
  {
    if sel.None? then st else SaveProfile(st, sel.value)
  }

  /** On a fresh store the calibration page opens the seeded tray, and its
      identity calibration puts both cards on the sheet, one above the
      other without overlapping. */
  lemma SeededTrayFits()
    ensures LoadProfiles(InitialStore().profiles) == InitialStore().profiles[0]
    ensures var p := LoadProfiles(InitialStore().profiles);
            Inside(Slot1Box(p), SHEET_WIDTH_PX, SHEET_HEIGHT_PX)
            && Inside(Slot2Box(p), SHEET_WIDTH_PX, SHEET_HEIGHT_PX)
            && Slot1Box(p).top + Slot1Box(p).height < Slot2Box(p).top
  {
    var profiles := InitialStore().profiles;
    assert profiles[0] in profiles;
    UncorrectedSlotsFit(profiles[0]);
  }

  /** The calibration page opens the profile the print page selects: the
      first default, else the first. */
  lemma SameProfileAsPrint(profiles: seq<Profile>)
    requires |profiles| > 0 && IdPresent(LoadProfiles(profiles).id)
    ensures SelectedProfileId(profiles) == LoadProfiles(profiles).id
  {
  }

  /** Saving the selection keeps the store well formed. */
  lemma SaveSelectedWellFormed(st: Store, sel: Option<Profile>)
    requires WellFormed(st)
    ensures WellFormed(SaveSelected(st, sel))
  {
    if sel.Some? {
      SaveProfileWellFormed(st, sel.value);
    }
  }

  // ------------------------------------------------------------ tray preview

  /** The two slot rectangles of the tray preview, in millimetres. */
  function TraySlot1(p: Profile): Box {
    Box(SLOT1_X_MM + p.offsetX, SLOT1_Y_MM + p.offsetY,
        CR80_WIDTH_MM * p.scaleX, CR80_HEIGHT_MM * p.scaleY)
  }

  function TraySlot2(p: Profile): Box {
    Box(SLOT1_X_MM + p.offsetX, SLOT2_Y_MM + p.offsetY + p.slot2YOffset,
        CR80_WIDTH_MM * p.scaleX, CR80_HEIGHT_MM * p.scaleY)
  }

  /** Slot 2 shares slot 1's left edge and sits the anchor distance plus
      the slot-2 correction below it. */
  lemma TraySlotsRelation(p: Profile)
    ensures TraySlot2(p).left == TraySlot1(p).left
    ensures TraySlot2(p).top - TraySlot1(p).top == SLOT2_Y_MM - SLOT1_Y_MM + p.slot2YOffset
    ensures TraySlot2(p).top - TraySlot1(p).top == CR80_HEIGHT_MM + SLOT_GAP_MM + p.slot2YOffset
    ensures TraySlot2(p).width == TraySlot1(p).width && TraySlot2(p).height == TraySlot1(p).height
  {
  }

  /** The preview's corners are the printed sheet's, converted to pixels. */
  lemma TrayMatchesSheet(p: Profile)
    ensures MmToPx(TraySlot1(p).left) == Slot1Box(p).left
    ensures MmToPx(TraySlot1(p).top) == Slot1Box(p).top
    ensures MmToPx(TraySlot2(p).left) == Slot2Box(p).left
    ensures MmToPx(TraySlot2(p).top) == Slot2Box(p).top
  {
  }
}

=== FILE: card_render.dfy ===
/** The substitution rules of `renderCard`: `{{KEY}}` text placeholders take
    the student's value for KEY (or stay and turn red), and photo
    placeholders are swapped for the student's photo at the same box. */
module CardRender {
  import opened Common
  import opened Records

  datatype Box = Box(left: real, top: real, width: real, height: real)

  /** One object of a card layout. `image` is the source of an image object
      created for a photo; layout objects carry `None`. */
  datatype CardObject = CardObject(
    text: string,
    fill: string,
    isPlaceholder: bool,
    isPhotoPlaceholder: bool,
    box: Box,
    image: Option<string>)

  /** The characters `.` does not match in a JavaScript regular expression. */
  predicate IsLineTerminator(c: char) {
    c == '\n' || c == '\r' || c == '\U{2028}' || c == '\U{2029}'
  }

  predicate OpenAt(t: string, i: int) {
    0 <= i && i + 2 <= |t| && t[i] == '{' && t[i + 1] == '{'
  }

  predicate CloseAt(t: string, j: int) {
    0 <= j && j + 2 <= |t| && t[j] == '}' && t[j + 1] == '}'
  }

  /** `/\{\{(.+)\}\}/` matches with `{{` at `i` and `}}` at `j`: the key
      `t[i+2..j]` is non-empty and holds no line terminator. */
  ghost predicate MatchAt(t: string, i: int, j: int) {
    OpenAt(t, i) && CloseAt(t, j) && i + 3 <= j
    && forall k :: i + 2 <= k < j ==> !IsLineTerminator(t[k])
  }

  /** The first position at or after `k` that ends the line. */
  function LineEnd(t: string, k: nat): (p: nat)
    requires k <= |t|
    ensures k <= p <= |t|
    ensures p < |t| ==> IsLineTerminator(t[p])
    ensures forall m :: k <= m < p ==> !IsLineTerminator(t[m])
    decreases |t| - k
  {
    if k == |t| || IsLineTerminator(t[k]) then k else LineEnd(t, k + 1)
  }

  /** The last `}}` starting in `[lo, hi]`. */
  function LastClose(t: string, lo: int, hi: int): (j: Option<int>)
    ensures j.Some? ==> lo <= j.value <= hi && CloseAt(t, j.value)
    ensures j.Some? ==> forall m :: j.value < m <= hi ==> !CloseAt(t, m)
    ensures j.None? ==> forall m :: lo <= m <= hi ==> !CloseAt(t, m)
    decreases hi - lo
  {
    if hi < lo then None
    else if CloseAt(t, hi) then Some(hi)
    else LastClose(t, lo, hi - 1)
  }

  /** The greedy match starting at `i`: `.+` runs to the line end and backs
      off to the last `}}`. */
  function MatchFrom(t: string, i: nat): (j: Option<int>)
    ensures j.Some? ==> MatchAt(t, i, j.value)
    ensures j.Some? ==> forall m :: MatchAt(t, i, m) ==> m <= j.value
    ensures j.None? ==> forall m :: !MatchAt(t, i, m)
  {
    if OpenAt(t, i) then
      var p := LineEnd(t, i + 2);
      var j := LastClose(t, i + 3, p);
      assert forall m :: MatchAt(t, i, m) ==> m <= p;
      j
    else None
  }

  /** The leftmost match at or after `i`, as the pair of positions. */
  function SearchFrom(t: string, i: nat): (r: Option<(int, int)>)
    ensures r.Some? ==> i <= r.value.0 && MatchAt(t, r.value.0, r.value.1)
    ensures r.Some? ==> forall m :: MatchAt(t, r.value.0, m) ==> m <= r.value.1
    ensures r.Some? ==> forall a, b :: i <= a < r.value.0 ==> !MatchAt(t, a, b)
    ensures r.None? ==> forall a, b :: i <= a ==> !MatchAt(t, a, b)
    decreases |t| - i
  {
    if |t| <= i then
      assert forall a, b :: i <= a ==> !MatchAt(t, a, b) by {
        forall a, b | i <= a ensures !MatchAt(t, a, b) { }
      }
      None
    else match MatchFrom(t, i)
      case Some(j) => Some((i, j))
      case None => SearchFrom(t, i + 1)
  }

  /** `text.match(/\{\{(.+)\}\}/)?.[1]`: the key of the leftmost, greedy
      match. */
  function PlaceholderKey(t: string): (key: Option<string>)
    ensures key.None? <==> forall a, b :: !MatchAt(t, a, b)
    ensures key.Some? ==> exists a, b :: MatchAt(t, a, b) && key.value == t[a + 2..b]
                            && (forall c, d :: MatchAt(t, c, d) ==> a <= c)
                            && (forall d :: MatchAt(t, a, d) ==> d <= b)
    ensures key.Some? ==> |key.value| >= 1
  {
    match SearchFrom(t, 0)
    case Some((a, b)) => Some(t[a + 2..b])
    case None => None
  }

  /** The text-placeholder rule for one object. */
  function SubstituteText(o: CardObject, d: Data): (r: CardObject)
    ensures r.isPlaceholder == o.isPlaceholder && r.isPhotoPlaceholder == o.isPhotoPlaceholder
    ensures r.box == o.box && r.image == o.image
    ensures (!o.isPlaceholder || o.text == "" || PlaceholderKey(o.text).None?) ==> r == o
    ensures o.isPlaceholder && o.text != "" && PlaceholderKey(o.text).Some? ==>
              var key := PlaceholderKey(o.text).value;
              (Truthy(d, key) ==> r.text == d[key] && r.fill == o.fill)
              && (!Truthy(d, key) ==> r.text == o.text && r.fill == "red")
  {
    if o.text != "" && o.isPlaceholder then
      match PlaceholderKey(o.text)
      case Some(key) =>
        if Truthy(d, key) then o.(text := d[key]) else o.(fill := "red")
      case None => o
    else o
  }

  /** The photo is supplied (`photoData` is truthy). */
  predicate PhotoGiven(photo: Option<string>) {
    Present(photo)
  }

  predicate Replaced(o: CardObject, photo: Option<string>) {
    o.isPhotoPlaceholder && PhotoGiven(photo)
  }

  /** The image object that takes a photo placeholder's place. */
  function PhotoImage(o: CardObject, src: string): (img: CardObject)
    ensures img.box == o.box && img.image == Some(src)
    ensures !img.isPlaceholder && !img.isPhotoPlaceholder
  {
    CardObject("", "", false, false, o.box, Some(src))
  }

  /** The objects that stay on the canvas, text-substituted, in order. */
  function Kept(objs: seq<CardObject>, d: Data, photo: Option<string>): (r: seq<CardObject>)
  {
    if objs == [] then []
    else (if Replaced(objs[0], photo) then [] else [SubstituteText(objs[0], d)])
         + Kept(objs[1..], d, photo)
  }

  /** The images appended for the replaced photo placeholders, in order. */
  function Added(objs: seq<CardObject>, photo: Option<string>): (r: seq<CardObject>)
  {
    if objs == [] then []
    else (if Replaced(objs[0], photo) then [PhotoImage(objs[0], photo.value)] else [])
         + Added(objs[1..], photo)
  }

  /** The canvas objects after `renderCard`'s loop: removed placeholders
      drop out where they were and their images are appended at the end. */
  function RenderObjects(objs: seq<CardObject>, d: Data, photo: Option<string>): (r: seq<CardObject>)
  {
    Kept(objs, d, photo) + Added(objs, photo)
  }

  lemma {:induction false} KeptAddedSizes(objs: seq<CardObject>, d: Data, photo: Option<string>)
    ensures |Kept(objs, d, photo)| + |Added(objs, photo)| == |objs|
    ensures forall o :: o in Added(objs, photo) ==> o.image == photo && !o.isPhotoPlaceholder
    ensures forall o :: o in Kept(objs, d, photo) ==> !Replaced(o, photo)
  {
    if objs != [] {
      KeptAddedSizes(objs[1..], d, photo);
    }
  }

  /** Rendering keeps the object count; when a photo is supplied no photo
      placeholder survives and every added image shows that photo. */
  lemma RenderKeepsCount(objs: seq<CardObject>, d: Data, photo: Option<string>)
    ensures |RenderObjects(objs, d, photo)| == |objs|
    ensures PhotoGiven(photo) ==>
              forall o :: o in RenderObjects(objs, d, photo) ==> !o.isPhotoPlaceholder
  {
    KeptAddedSizes(objs, d, photo);
  }

  lemma {:induction false} AddedWithoutPhoto(objs: seq<CardObject>, photo: Option<string>)
    requires !PhotoGiven(photo)
    ensures Added(objs, photo) == []
  {
    if objs != [] {
      AddedWithoutPhoto(objs[1..], photo);
    }
  }

  lemma {:induction false} KeptWithoutPhoto(objs: seq<CardObject>, d: Data, photo: Option<string>)
    requires !PhotoGiven(photo)
    ensures |Kept(objs, d, photo)| == |objs|
    ensures forall i :: 0 <= i < |objs| ==> Kept(objs, d, photo)[i] == SubstituteText(objs[i], d)
  {
    if objs != [] {
      KeptWithoutPhoto(objs[1..], d, photo);
      var k := Kept(objs, d, photo);
      assert k == [SubstituteText(objs[0], d)] + Kept(objs[1..], d, photo);
      forall i | 0 <= i < |objs|
        ensures k[i] == SubstituteText(objs[i], d)
      {
        if i > 0 {
          assert objs[1..][i - 1] == objs[i];
        }
      }
    }
  }

  /** Without a photo, rendering is the text substitution applied to every
      object in place. */
  lemma RenderWithoutPhoto(objs: seq<CardObject>, d: Data, photo: Option<string>)
    requires !PhotoGiven(photo)
    ensures RenderObjects(objs, d, photo) == Map((o: CardObject) => SubstituteText(o, d), objs)
  {
    AddedWithoutPhoto(objs, photo);
    KeptWithoutPhoto(objs, d, photo);
    var r := RenderObjects(objs, d, photo);
    var m := Map((o: CardObject) => SubstituteText(o, d), objs);
    assert r == Kept(objs, d, photo);
    assert |r| == |m|;
    assert forall i :: 0 <= i < |r| ==> r[i] == m[i];
  }

  /** With a photo, each photo placeholder's image lands at the end with the
      placeholder's box, in placeholder order. */
  lemma {:induction false} AddedImagesMatchPlaceholders(objs: seq<CardObject>, photo: Option<string>)
    requires PhotoGiven(photo)
    ensures Added(objs, photo) == Map((o: CardObject) => PhotoImage(o, photo.value),
                                      Filter((o: CardObject) => o.isPhotoPlaceholder, objs))
  {
    if objs != [] {
      AddedImagesMatchPlaceholders(objs[1..], photo);
    }
  }

  /** The layout placeholder the designer inserts by default. */
  lemma NamePlaceholder()
    ensures PlaceholderKey("{{NAME}}") == Some("NAME")
  {
    var t := "{{NAME}}";
    assert MatchAt(t, 0, 6);
    var key := PlaceholderKey(t);
    var a, b :| MatchAt(t, a, b) && key.value == t[a + 2..b]
                && (forall c, d :: MatchAt(t, c, d) ==> a <= c)
                && (forall d :: MatchAt(t, a, d) ==> d <= b);
    assert a == 0 && b == 6;
    assert t[a + 2..b] == "NAME";
  }

  /** Two tags in one text object form a single greedy key. */
  lemma GreedyKey()
    ensures PlaceholderKey("{{A}}{{B}}") == Some("A}}{{B")
  {
    var t := "{{A}}{{B}}";
    assert MatchAt(t, 0, 8);
    var key := PlaceholderKey(t);
    var a, b :| MatchAt(t, a, b) && key.value == t[a + 2..b]
                && (forall c, d :: MatchAt(t, c, d) ==> a <= c)
                && (forall d :: MatchAt(t, a, d) ==> d <= b);
    assert a == 0 && b == 8;
    assert t[a + 2..b] == "A}}{{B";
  }
}

=== FILE: common.dfy ===
/** Shared building blocks: an optional value and order-preserving filtering
    of sequences, with the facts about filtering that the page models use. */
module Common {

  datatype Option<T> = None | Some(value: T)

  /** The elements of `s` that satisfy `p`, in their original order
      (JavaScript's `Array.prototype.filter`). */
  function Filter<T(!new)>(p: T -> bool, s: seq<T>): (r: seq<T>)
    ensures |r| <= |s|
    ensures forall x :: x in r <==> x in s && p(x)
  {
    if s == [] then []
    else if p(s[0]) then [s[0]] + Filter(p, s[1..])
    else Filter(p, s[1..])
  }

  /** Filtering distributes over concatenation, so the kept elements keep
      their relative order. */
  lemma {:induction false} FilterAppend<T(!new)>(p: T -> bool, a: seq<T>, b: seq<T>)
    ensures Filter(p, a + b) == Filter(p, a) + Filter(p, b)
  {
    if a == [] {
      assert a + b == b;
    } else {
      assert (a + b)[0] == a[0];
      assert (a + b)[1..] == a[1..] + b;
      FilterAppend(p, a[1..], b);
    }
  }

  /** A filter that keeps everything is the identity. */
  lemma {:induction false} FilterAll<T(!new)>(p: T -> bool, s: seq<T>)
    requires forall i :: 0 <= i < |s| ==> p(s[i])
    ensures Filter(p, s) == s
  {
    if s != [] {
      FilterAll(p, s[1..]);
    }
  }

  /** A filter that keeps nothing yields the empty sequence. */
  lemma {:induction false} FilterNone<T(!new)>(p: T -> bool, s: seq<T>)
    requires forall i :: 0 <= i < |s| ==> !p(s[i])
    ensures Filter(p, s) == []
  {
    if s != [] {
      FilterNone(p, s[1..]);
    }
  }

  /** Filtering keeps every kept value exactly as often as it occurs. */
  lemma {:induction false} FilterMultiplicity<T(!new)>(p: T -> bool, s: seq<T>, x: T)
    ensures multiset(Filter(p, s))[x] == if p(x) then multiset(s)[x] else 0
  {
    if s != [] {
      FilterMultiplicity(p, s[1..], x);
      assert s == [s[0]] + s[1..];
      assert multiset(s) == multiset([s[0]]) + multiset(s[1..]);
    }
  }

  /** `Array.prototype.find`: the first element that satisfies `p`. */
  function Find<T>(p: T -> bool, s: seq<T>): (r: Option<T>)
    ensures r.None? <==> forall k :: 0 <= k < |s| ==> !p(s[k])
    ensures r.Some? ==> exists k :: 0 <= k < |s| && s[k] == r.value && p(s[k])
                          && forall j :: 0 <= j < k ==> !p(s[j])
  {
    if s == [] then None
    else if p(s[0]) then Some(s[0])
    else
      var r := Find(p, s[1..]);
      assert forall k :: 1 <= k < |s| ==> s[k] == s[1..][k - 1];
      r
  }

  /** The number of elements of `s` that satisfy `p`. */
  function CountIf<T>(p: T -> bool, s: seq<T>): (n: nat)
    ensures n <= |s|
  {
    if s == [] then 0
    else (if p(s[0]) then 1 else 0) + CountIf(p, s[1..])
  }

  lemma {:induction false} FilterLength<T(!new)>(p: T -> bool, s: seq<T>)
    ensures |Filter(p, s)| == CountIf(p, s)
  {
    if s != [] {
      FilterLength(p, s[1..]);
    }
  }

  lemma {:induction false} CountIfAppend<T>(p: T -> bool, a: seq<T>, b: seq<T>)
    ensures CountIf(p, a + b) == CountIf(p, a) + CountIf(p, b)
  {
    if a != [] {
      assert (a + b)[0] == a[0];
      assert (a + b)[1..] == a[1..] + b;
      CountIfAppend(p, a[1..], b);
    } else {
      assert a + b == b;
    }
  }

  /** Applies `f` to every element, keeping the order. */
  function Map<T, U>(f: T -> U, s: seq<T>): (r: seq<U>)
    ensures |r| == |s|
    ensures forall i :: 0 <= i < |s| ==> r[i] == f(s[i])
  {
    seq(|s|, i requires 0 <= i < |s| => f(s[i]))
  }

  /** Mapping distributes over concatenation. */
  lemma MapAppend<T, U>(f: T -> U, a: seq<T>, b: seq<T>)
    ensures Map(f, a + b) == Map(f, a) + Map(f, b)
  {
    var l, r := Map(f, a + b), Map(f, a) + Map(f, b);
    assert |l| == |r|;
    forall i | 0 <= i < |l|
      ensures l[i] == r[i]
    {
      if i < |a| {
        assert (a + b)[i] == a[i];
      } else {
        assert (a + b)[i] == b[i - |a|];
      }
    }
  }
}

=== FILE: data_service.dfy ===
/** Required-field validation of a student row and the rows of the
    exception report. */
module DataService {
  import opened Common
  import opened Records

  datatype Validation = Validation(isValid: bool, missingFields: seq<string>)

  /** `validateStudentData`: the required fields whose value is falsy, in
      the order given, duplicates included. */
  function ValidateStudentData(student: Data, requiredFields: seq<string>): (v: Validation)
    ensures v.isValid <==> v.missingFields == []
    ensures forall f :: f in v.missingFields <==> f in requiredFields && !Truthy(student, f)
    ensures forall f :: multiset(v.missingFields)[f]
                        == if Truthy(student, f) then 0 else multiset(requiredFields)[f]
  {
    var missing := Filter((f: string) => !Truthy(student, f), requiredFields);
    forall f ensures multiset(missing)[f]
                     == if Truthy(student, f) then 0 else multiset(requiredFields)[f] {
      FilterMultiplicity((f: string) => !Truthy(student, f), requiredFields, f);
    }
    Validation(|missing| == 0, missing)
  }

  /** With nothing required every student is valid. */
  lemma NothingRequired(student: Data)
    ensures ValidateStudentData(student, []).isValid
  {
  }

  /** The missing fields keep the order of the required list. */
  lemma MissingFieldsInOrder(student: Data, a: seq<string>, b: seq<string>)
    ensures ValidateStudentData(student, a + b).missingFields
            == ValidateStudentData(student, a).missingFields
               + ValidateStudentData(student, b).missingFields
  {
    FilterAppend((f: string) => !Truthy(student, f), a, b);
  }

  /** One row of the "Failed Cards" sheet. */
  datatype ReportRow = ReportRow(name: Option<string>, admNo: string, reason: Option<string>)

  /** The student's `data.NAME`, when the row has one. */
  function NameOf(s: Student): Option<string> {
    if "NAME" in s.data then Some(s.data["NAME"]) else None
  }

  /** `generateExceptionReport`'s rows: one per failed student, in order. */
  function ExceptionRows(failed: seq<Student>): (rows: seq<ReportRow>)
    ensures |rows| == |failed|
    ensures forall i :: 0 <= i < |failed| ==>
              rows[i].admNo == failed[i].admNo && rows[i].reason == failed[i].exceptionReason
              && rows[i].name == (if "NAME" in failed[i].data then Some(failed[i].data["NAME"]) else None)
  {
    Map((s: Student) => ReportRow(NameOf(s), s.admNo, s.exceptionReason), failed)
  }
}

=== FILE: design_canvas.dfy ===
/** The design canvas's viewport and guides: fit-to-view, wheel zoom about
    the pointer, drag panning, and the card and safe-margin guide
    rectangles. Positions are canvas pixels. */
module DesignCanvas {
  import opened Common
  import opened Units
  import opened CardRender

  /** The viewport transform `[zoom, 0, 0, zoom, x, y]`. */
  datatype Viewport = Viewport(zoom: real, x: real, y: real)

  /** The canvas starts at the identity transform and every change keeps
      the zoom positive. */
  predicate ValidViewport(v: Viewport) {
    v.zoom > 0.0
  }

  const FIT_PADDING: real := 60.0
  const MAX_FIT_ZOOM: real := 2.0
  const CARD_W: real := CR80_WIDTH_PX as real
  const CARD_H: real := CR80_HEIGHT_PX as real

  function Min(a: real, b: real): real {
    if a <= b then a else b
  }

  /** `zoomToCenter`: the largest zoom up to 2 at which the card and its
      padding fit, with the card centred; nothing for a zero-sized
      container. */
  function ZoomToCenter(v: Viewport, cw: nat, ch: nat): (r: Viewport)
    ensures cw == 0 || ch == 0 ==> r == v
    ensures cw > 0 && ch > 0 ==>
              && 0.0 < r.zoom <= MAX_FIT_ZOOM
              && r.zoom * (CARD_W + 2.0 * FIT_PADDING) <= cw as real
              && r.zoom * (CARD_H + 2.0 * FIT_PADDING) <= ch as real
              && (r.zoom == MAX_FIT_ZOOM
                  || r.zoom * (CARD_W + 2.0 * FIT_PADDING) == cw as real
                  || r.zoom * (CARD_H + 2.0 * FIT_PADDING) == ch as real)
              && 2.0 * r.x + CARD_W * r.zoom == cw as real
              && 2.0 * r.y + CARD_H * r.zoom == ch as real
  {
    if cw == 0 || ch == 0 then v
    else
      CardWidthPx();
      CardHeightPx();
      var sx := cw as real / (CARD_W + 2.0 * FIT_PADDING);
      var sy := ch as real / (CARD_H + 2.0 * FIT_PADDING);
      var z := Min(Min(sx, sy), MAX_FIT_ZOOM);
      Viewport(z, (cw as real - CARD_W * z) / 2.0, (ch as real - CARD_H * z) / 2.0)
  }

  /** Fitting leaves at least the padding between the card and each edge. */
  lemma FitLeavesPadding(v: Viewport, cw: nat, ch: nat)
    requires cw > 0 && ch > 0
    ensures var r := ZoomToCenter(v, cw, ch);
            r.x >= FIT_PADDING * r.zoom && r.y >= FIT_PADDING * r.zoom
  {
  }

  const MIN_ZOOM: real := 0.01
  const MAX_ZOOM: real := 10.0

  function ClampZoom(z: real): (c: real)
    ensures MIN_ZOOM <= c <= MAX_ZOOM
    ensures MIN_ZOOM <= z <= MAX_ZOOM ==> c == z
    ensures z > MAX_ZOOM ==> c == MAX_ZOOM
    ensures z < MIN_ZOOM ==> c == MIN_ZOOM
  {
    var z := if z > MAX_ZOOM then MAX_ZOOM else z;
    if z < MIN_ZOOM then MIN_ZOOM else z
  }

  /** fabric's `zoomToPoint`: the canvas point under `(px, py)` stays
      under it. */
  function ZoomToPoint(v: Viewport, px: real, py: real, z: real): (r: Viewport)
    requires ValidViewport(v)
    ensures r.zoom == z
    ensures (px - r.x) * v.zoom == (px - v.x) * z
    ensures (py - r.y) * v.zoom == (py - v.y) * z
  {
    Viewport(z, px - (px - v.x) / v.zoom * z, py - (py - v.y) / v.zoom * z)
  }

  /** The Alt+wheel handler; `factor` stands for `0.999 ** deltaY`. */
  function Wheel(v: Viewport, alt: bool, factor: real, px: real, py: real): (r: Viewport)
    requires ValidViewport(v)
    ensures !alt ==> r == v
    ensures alt ==> MIN_ZOOM <= r.zoom <= MAX_ZOOM
    ensures alt ==> r.zoom == ClampZoom(v.zoom * factor)
    ensures alt ==> (px - r.x) * v.zoom == (px - v.x) * r.zoom
                    && (py - r.y) * v.zoom == (py - v.y) * r.zoom
    ensures ValidViewport(r)
  {
    if !alt then v else ZoomToPoint(v, px, py, ClampZoom(v.zoom * factor))
  }

  /** The canvas point shown at screen position `(px, py)`. */
  function CanvasX(v: Viewport, px: real): real
    requires ValidViewport(v)
  {
    (px - v.x) / v.zoom
  }

  /** From `a·d = b·c` with non-zero `c` and `d`, `a/c = b/d`. */
  lemma CrossDivide(a: real, b: real, c: real, d: real)
    requires c != 0.0 && d != 0.0 && a * d == b * c
    ensures a / c == b / d
  {
    var q := a / c;
    assert a == q * c;
    assert b * c == (q * d) * c;
    assert b == q * d;
  }

  /** Zooming with the wheel keeps the canvas point under the pointer. */
  lemma WheelKeepsPointerPoint(v: Viewport, alt: bool, factor: real, px: real, py: real)
    requires ValidViewport(v)
    ensures CanvasX(Wheel(v, alt, factor, px, py), px) == CanvasX(v, px)
  {
    var r := Wheel(v, alt, factor, px, py);
    if alt {
      CrossDivide(px - r.x, px - v.x, r.zoom, v.zoom);
    }
  }

  // ------------------------------------------------------------------ panning

  datatype Pan = Pan(dragging: bool, selection: bool, lastX: real, lastY: real, view: Viewport)

  const MIDDLE_BUTTON: int := 1

  function MouseDown(s: Pan, alt: bool, button: int, x: real, y: real): (r: Pan)
    ensures (alt || button == MIDDLE_BUTTON) ==>
              r.dragging && !r.selection && r.lastX == x && r.lastY == y && r.view == s.view
    ensures !(alt || button == MIDDLE_BUTTON) ==> r == s
  {
    if alt || button == MIDDLE_BUTTON then s.(dragging := true, selection := false, lastX := x, lastY := y)
    else s
  }

  function MouseMove(s: Pan, x: real, y: real): (r: Pan)
    ensures !s.dragging ==> r == s
    ensures s.dragging ==> r.dragging == s.dragging && r.selection == s.selection
                           && r.view.zoom == s.view.zoom
                           && r.view.x - s.view.x == x - s.lastX
                           && r.view.y - s.view.y == y - s.lastY
                           && r.lastX == x && r.lastY == y
  {
    if s.dragging then
      s.(view := s.view.(x := s.view.x + (x - s.lastX), y := s.view.y + (y - s.lastY)),
         lastX := x, lastY := y)
    else s
  }

  function MouseUp(s: Pan): (r: Pan)
    ensures s.dragging ==> !r.dragging && r.selection && r.view == s.view
    ensures !s.dragging ==> r == s
  {
    if s.dragging then s.(dragging := false, selection := true) else s
  }

  /** A run of pointer moves. */
  function Moves(s: Pan, pts: seq<(real, real)>): Pan
    decreases |pts|
  {
    if pts == [] then s else Moves(MouseMove(s, pts[0].0, pts[0].1), pts[1..])
  }

  /** Over a drag, the view moves by exactly the pointer's displacement
      from where the drag started, and the zoom is unchanged. */
  lemma {:induction false} DragTranslation(s: Pan, pts: seq<(real, real)>)
    requires s.dragging && pts != []
    ensures Moves(s, pts).view.x - s.view.x == pts[|pts| - 1].0 - s.lastX
    ensures Moves(s, pts).view.y - s.view.y == pts[|pts| - 1].1 - s.lastY
    ensures Moves(s, pts).view.zoom == s.view.zoom
    ensures Moves(s, pts).dragging && Moves(s, pts).selection == s.selection
    decreases |pts|
  {
    var s1 := MouseMove(s, pts[0].0, pts[0].1);
    if |pts| > 1 {
      DragTranslation(s1, pts[1..]);
    }
  }

  /** Moves without a drag change nothing. */
  lemma {:induction false} MovesWithoutDrag(s: Pan, pts: seq<(real, real)>)
    requires !s.dragging
    ensures Moves(s, pts) == s
    decreases |pts|
  {
    if pts != [] {
      MovesWithoutDrag(MouseMove(s, pts[0].0, pts[0].1), pts[1..]);
    }
  }

  /** A whole press, drag and release: selection is back on and the view
      has followed the pointer. */
  lemma PanGesture(s: Pan, alt: bool, button: int, x0: real, y0: real, pts: seq<(real, real)>)
    requires !s.dragging && (alt || button == MIDDLE_BUTTON) && pts != []
    ensures var r := MouseUp(Moves(MouseDown(s, alt, button, x0, y0), pts));
            !r.dragging && r.selection
            && r.view.x - s.view.x == pts[|pts| - 1].0 - x0
            && r.view.y - s.view.y == pts[|pts| - 1].1 - y0
            && r.view.zoom == s.view.zoom
  {
    DragTranslation(MouseDown(s, alt, button, x0, y0), pts);
  }

  // ------------------------------------------------------------------- guides

  /** A canvas object as far as the guides are concerned. */
  datatype CanvasObject = CanvasObject(isGuide: bool, box: Box, fill: string)

  predicate IsGuide(o: CanvasObject) { o.isGuide }
  predicate NotGuide(o: CanvasObject) { !o.isGuide }

  function CardBackground(): CanvasObject {
    CanvasObject(true, Box(0.0, 0.0, CARD_W, CARD_H), "#ffffff")
  }

  /** `margin` is the safe-margin width in pixels. */
  function SafeMarginGuide(margin: real): CanvasObject {
    CanvasObject(true, Box(margin, margin, CARD_W - 2.0 * margin, CARD_H - 2.0 * margin), "transparent")
  }

  /** `ensureGuides`: old guides go, the card background goes to the back
      and the safe-margin frame to the front. */
  function EnsureGuides(objs: seq<CanvasObject>, margin: real): (r: seq<CanvasObject>)
    ensures |r| == |Filter(NotGuide, objs)| + 2
    ensures r[0] == CardBackground() && r[|r| - 1] == SafeMarginGuide(margin)
    ensures r[1..|r| - 1] == Filter(NotGuide, objs)
    ensures CountIf(IsGuide, r) == 2
  {
    var kept := Filter(NotGuide, objs);
    var r := [CardBackground()] + kept + [SafeMarginGuide(margin)];
    assert r[1..|r| - 1] == kept;
    assert forall i :: 0 <= i < |kept| ==> kept[i] in kept;
    FilterNone(IsGuide, kept);
    FilterLength(IsGuide, kept);
    CountIfAppend(IsGuide, [CardBackground()], kept);
    CountIfAppend(IsGuide, [CardBackground()] + kept, [SafeMarginGuide(margin)]);
    r
  }

  /** Calling it again changes nothing: there are always exactly these
      two guides. */
  lemma EnsureGuidesIdempotent(objs: seq<CanvasObject>, margin: real)
    ensures EnsureGuides(EnsureGuides(objs, margin), margin) == EnsureGuides(objs, margin)
  {
    var kept := Filter(NotGuide, objs);
    FilterAll(NotGuide, kept);
    FilterAppend(NotGuide, [CardBackground()], kept);
    FilterAppend(NotGuide, [CardBackground()] + kept, [SafeMarginGuide(margin)]);
  }

  /** The safe-margin frame sits `margin` in from every edge of the card. */
  lemma SafeMarginInset(margin: real)
    requires 0.0 <= 2.0 * margin < CARD_H
    ensures var g := SafeMarginGuide(margin).box;
            var card := CardBackground().box;
            && g.left - card.left == margin
            && g.top - card.top == margin
            && (card.left + card.width) - (g.left + g.width) == margin
            && (card.top + card.height) - (g.top + g.height) == margin
            && g.width > 0.0 && g.height > 0.0
  {
    CardWidthPx();
    CardHeightPx();
  }
}

=== FILE: layouts.dfy ===
/** The layout library: the search box, renaming (copy under the new name,
    then delete the old row) and the reload rule after a `.wid` import. */
module Layouts {
  import opened Common
  import opened Text
  import opened Records
  import opened Store

  /** The layout's lower-cased name contains the lower-cased term. */
  predicate NameMatches(l: Layout, term: string) {
    Includes(Lower(l.name), Lower(term))
  }

  /** `filteredLayouts`. */
  function FilterLayouts(layouts: seq<Layout>, term: string): (r: seq<Layout>)
    ensures forall l :: l in r <==> l in layouts && Contains(Lower(l.name), Lower(term))
    ensures |r| <= |layouts|
  {
    Filter((l: Layout) => NameMatches(l, term), layouts)
  }

  /** The search keeps the library's order. */
  lemma FilterLayoutsInOrder(a: seq<Layout>, b: seq<Layout>, term: string)
    ensures FilterLayouts(a + b, term) == FilterLayouts(a, term) + FilterLayouts(b, term)
  {
    FilterAppend((l: Layout) => NameMatches(l, term), a, b);
  }

  /** An empty search shows the whole library. */
  lemma EmptySearchKeepsAll(layouts: seq<Layout>)
    ensures FilterLayouts(layouts, "") == layouts
  {
    forall l | l in layouts ensures NameMatches(l, "") {
      IncludesEmpty(Lower(l.name));
    }
    FilterAll((l: Layout) => NameMatches(l, ""), layouts);
  }

  /** The rename prompt acts only on a non-empty, different name. */
  predicate RenameActs(layout: Layout, newName: string) {
    newName != "" && newName != layout.name
  }

  /** `handleRename`'s confirm: save a copy under the new name, then delete
      the old id. */
  function Rename(st: Store, layout: Layout, newName: string): (r: Store)
    ensures !RenameActs(layout, newName) ==> r == st
    ensures RenameActs(layout, newName) ==>
              (forall l :: l in r.layouts <==>
                 (l in st.layouts && l.id != layout.id)
                 || (l == Layout(st.nextLayoutId, newName, layout.content) && st.nextLayoutId != layout.id))
    ensures r.profiles == st.profiles && r.batches == st.batches && r.students == st.students
  {
    if RenameActs(layout, newName) then
      DeleteLayout(SaveLayout(st, newName, layout.content), layout.id)
    else st
  }

  /** Renaming a layout of a well-formed library replaces it by one new
      row with the new name and the same content, under a fresh id. */
  lemma RenameReplaces(st: Store, layout: Layout, newName: string)
    requires WellFormed(st) && layout in st.layouts
    requires RenameActs(layout, newName)
    ensures Layout(st.nextLayoutId, newName, layout.content) in Rename(st, layout, newName).layouts
    ensures forall l :: l in Rename(st, layout, newName).layouts ==> l.id != layout.id
    ensures forall l :: l in st.layouts && l.id != layout.id ==> l in Rename(st, layout, newName).layouts
  {
    var k :| 0 <= k < |st.layouts| && st.layouts[k] == layout;
    assert layout.id < st.nextLayoutId;
  }

  /** After a rename, searching for the new name finds the renamed copy. */
  lemma RenamedLayoutIsFound(st: Store, layout: Layout, newName: string)
    requires WellFormed(st) && layout in st.layouts
    requires RenameActs(layout, newName)
    ensures Layout(st.nextLayoutId, newName, layout.content)
            in FilterLayouts(Rename(st, layout, newName).layouts, newName)
  {
    RenameReplaces(st, layout, newName);
    assert IsPrefix(Lower(newName), Lower(newName)[0..]);
  }

  /** What an `import-batch-wid` result announces. */
  datatype WidImport = WidImport(kind: string)

  datatype ImportNotice = NoImport | LayoutImported | BatchImported

  /** `handleImportWid`: the library reloads only for an imported layout. */
  function ImportNoticeFor(res: Option<WidImport>): (n: ImportNotice)
    ensures n == LayoutImported <==> res.Some? && res.value.kind == "layout"
    ensures n == NoImport <==> res.None?
  {
    match res
    case None => NoImport
    case Some(w) => if w.kind == "layout" then LayoutImported else BatchImported
  }
}

=== FILE: photo_service.dfy ===
/** Matching student photos to admission numbers by file name: the stem
    (text before the first `.`) of the base name must equal the number. */
module PhotoService {
  import opened Common

  predicate IsSeparator(c: char) {
    c == '/' || c == '\\'
  }

  /** `p.split(/[\\/]/).pop()`: the text after the last `/` or `\`. */
  function Basename(p: string): (b: string)
    ensures |b| <= |p| && b == p[|p| - |b|..]
    ensures forall i :: 0 <= i < |b| ==> !IsSeparator(b[i])
    ensures |b| < |p| ==> IsSeparator(p[|p| - |b| - 1])
    decreases |p|
  {
    if p == [] then []
    else if IsSeparator(p[|p| - 1]) then []
    else Basename(p[..|p| - 1]) + [p[|p| - 1]]
  }

  /** `f.split('.')[0]`: the text before the first `.`. */
  function Stem(f: string): (s: string)
    ensures |s| <= |f| && s == f[..|s|]
    ensures forall i :: 0 <= i < |s| ==> s[i] != '.'
    ensures |s| < |f| ==> f[|s|] == '.'
  {
    if f == [] || f[0] == '.' then [] else [f[0]] + Stem(f[1..])
  }

  predicate PhotoMatches(p: string, admNo: string) {
    Stem(Basename(p)) == admNo
  }

  /** `matchPhoto`: the first path whose base name's stem is `admNo`. */
  function MatchPhoto(photos: seq<string>, admNo: string): (r: Option<string>)
    ensures r.None? <==> forall k :: 0 <= k < |photos| ==> !PhotoMatches(photos[k], admNo)
    ensures r.Some? ==> exists k :: 0 <= k < |photos| && photos[k] == r.value
                          && PhotoMatches(photos[k], admNo)
                          && forall j :: 0 <= j < k ==> !PhotoMatches(photos[j], admNo)
  {
    Find((p: string) => PhotoMatches(p, admNo), photos)
  }

  /** `files.find(f => f.split('.')[0] === admNo)` over a directory listing. */
  function MatchFile(files: seq<string>, admNo: string): (r: Option<string>)
    ensures r.None? <==> forall k :: 0 <= k < |files| ==> Stem(files[k]) != admNo
    ensures r.Some? ==> exists k :: 0 <= k < |files| && files[k] == r.value
                          && Stem(files[k]) == admNo
                          && forall j :: 0 <= j < k ==> Stem(files[j]) != admNo
  {
    Find((f: string) => Stem(f) == admNo, files)
  }

  /** A name without separators is its own base name. */
  lemma {:induction false} BasenameOfPlainName(f: string)
    requires forall i :: 0 <= i < |f| ==> !IsSeparator(f[i])
    ensures Basename(f) == f
    decreases |f|
  {
    if f != [] {
      BasenameOfPlainName(f[..|f| - 1]);
    }
  }

  /** On bare file names, as a directory listing returns them, the two
      matchers agree. */
  lemma {:induction false} MatchersAgreeOnListings(files: seq<string>, admNo: string)
    requires forall k, i :: 0 <= k < |files| && 0 <= i < |files[k]| ==> !IsSeparator(files[k][i])
    ensures MatchFile(files, admNo) == MatchPhoto(files, admNo)
  {
    if files != [] {
      BasenameOfPlainName(files[0]);
      MatchersAgreeOnListings(files[1..], admNo);
    }
  }
}

=== FILE: preview.dfy ===
/** The individual card preview: which students it shows, the layout it
    starts with, the photo's MIME type, the adjustment editor, the download
    name and the record pager. */
module Preview {
  import opened Common
  import opened Text
  import opened Records
  import opened CardRender

  /** Students the preview lists: not marked failed, with a photo path. */
  predicate Printable(s: Student) {
    s.printStatus != "failed" && HasPhoto(s)
  }

  function PreviewStudents(students: seq<Student>): (r: seq<Student>)
    ensures forall s :: s in r <==> s in students && Printable(s)
    ensures |r| == CountIf(Printable, students)
  {
    FilterLength(Printable, students);
    Filter(Printable, students)
  }

  /** The filter keeps the original order: filtering a concatenation filters
      each part in place. */
  lemma PreviewStudentsInOrder(a: seq<Student>, b: seq<Student>)
    ensures PreviewStudents(a + b) == PreviewStudents(a) + PreviewStudents(b)
  {
    FilterAppend(Printable, a, b);
  }

  /** The layout selected after loading: the batch's own layout when it has
      one, else the first layout; with neither the selection is left as it
      was. */
  function ChooseLayout(current: Option<int>, batch: Option<Batch>, layouts: seq<Layout>): (r: Option<int>)
    ensures batch.Some? && IdPresent(batch.value.layoutId) ==> r == batch.value.layoutId
    ensures !(batch.Some? && IdPresent(batch.value.layoutId)) && |layouts| > 0 ==> r == Some(layouts[0].id)
    ensures !(batch.Some? && IdPresent(batch.value.layoutId)) && |layouts| == 0 ==> r == current
  {
    if batch.Some? && IdPresent(batch.value.layoutId) then batch.value.layoutId
    else if |layouts| > 0 then Some(layouts[0].id)
    else current
  }

  /** On the first load nothing is selected unless a layout exists. */
  lemma FirstLoadLayout(batch: Option<Batch>, layouts: seq<Layout>)
    ensures ChooseLayout(None, batch, layouts).None? <==>
              !(batch.Some? && IdPresent(batch.value.layoutId)) && |layouts| == 0
  {
  }

  // ------------------------------------------------------------------- photo

  /** `path.split('.').pop()`: the text after the last `.` (all of it when
      there is none). */
  function Extension(p: string): (e: string)
    ensures |e| <= |p| && e == p[|p| - |e|..]
    ensures forall i :: 0 <= i < |e| ==> e[i] != '.'
    ensures |e| < |p| ==> p[|p| - |e| - 1] == '.'
    decreases |p|
  {
    if p == [] then []
    else if p[|p| - 1] == '.' then []
    else Extension(p[..|p| - 1]) + [p[|p| - 1]]
  }

  /** The extension of a name ending in `.ext` is `ext`. */
  lemma ExtensionOfDotted(stem: string, ext: string)
    requires forall i :: 0 <= i < |ext| ==> ext[i] != '.'
    ensures Extension(stem + "." + ext) == ext
  {
    var p := stem + "." + ext;
    var e := Extension(p);
    assert p[|p| - |ext|..] == ext;
    assert p[|stem|] == '.';
    assert forall i :: 0 <= i < |ext| ==> p[|stem| + 1 + i] == ext[i];
  }

  const PNG: string := "image/png"
  const JPEG: string := "image/jpeg"

  /** The MIME type the preview gives a photo file. */
  function MimeFor(path: string): (m: string)
    ensures m == PNG <==> Lower(Extension(path)) == "png"
    ensures m == PNG || m == JPEG
  {
    var ext := Lower(Extension(path));
    var ext := if ext == "" then "jpeg" else ext;
    if ext == "png" then PNG else JPEG
  }

  /** For `stem.ext`, PNG exactly when `ext` is "png" in any letter case. */
  lemma MimeOfExtension(stem: string, ext: string)
    requires forall i :: 0 <= i < |ext| ==> ext[i] != '.'
    ensures MimeFor(stem + "." + ext) == PNG <==> Lower(ext) == "png"
  {
    ExtensionOfDotted(stem, ext);
  }

  /** The `data:` URL the preview hands to `renderCard`: the MIME type is
      PNG for a `.png` file in any letter case and JPEG otherwise. */
  function PhotoDataUrl(path: string, base64: string): (url: string)
    ensures Lower(Extension(path)) == "png" ==> url == "data:" + PNG + ";base64," + base64
    ensures Lower(Extension(path)) != "png" ==> url == "data:" + JPEG + ";base64," + base64
  {
    "data:" + MimeFor(path) + ";base64," + base64
  }

  /** `updatePreview`: the current student's card. `photo` is what
      `read-photo` returned for the student's photo path. */
  function PreviewCard(students: seq<Student>, index: nat, layouts: seq<Layout>,
                       layoutId: Option<int>, photo: Option<string>,
                       parse: string -> seq<CardObject>): (card: Option<seq<CardObject>>)
    ensures card.Some? ==> index < |students| && IdPresent(layoutId) && LayoutById(layouts, layoutId).Some?
    ensures card.Some? ==> |card.value| == |parse(LayoutById(layouts, layoutId).value.content)|
    ensures card.Some? && HasPhoto(students[index]) && Present(photo) ==>
              forall o :: o in card.value ==> !o.isPhotoPlaceholder
    ensures card.Some? && HasPhoto(students[index]) && Present(photo) ==>
              var placeholders := Filter((o: CardObject) => o.isPhotoPlaceholder,
                                         parse(LayoutById(layouts, layoutId).value.content));
              |placeholders| <= |card.value|
              && card.value[|card.value| - |placeholders|..]
                 == Map((o: CardObject) => PhotoImage(o, PhotoDataUrl(students[index].photoPath.value, photo.value)),
                        placeholders)
    ensures card.Some? && !(HasPhoto(students[index]) && Present(photo)) ==>
              card.value == Map((o: CardObject) => SubstituteText(o, students[index].data),
                                parse(LayoutById(layouts, layoutId).value.content))
  {
    if |students| == 0 || !IdPresent(layoutId) then None
    else
      var layout := LayoutById(layouts, layoutId);
      if layout.None? || index >= |students| then None
      else
        var s := students[index];
        var pData := if HasPhoto(s) && Present(photo)
                     then Some(PhotoDataUrl(s.photoPath.value, photo.value)) else None;
        var objs := parse(layout.value.content);
        RenderKeepsCount(objs, s.data, pData);
        if pData.None? then
          RenderWithoutPhoto(objs, s.data, pData);
          Some(RenderObjects(objs, s.data, pData))
        else
          KeptAddedSizes(objs, s.data, pData);
          AddedImagesMatchPlaceholders(objs, pData);
          Some(RenderObjects(objs, s.data, pData))
  }

  // ------------------------------------------------------------- adjustments

  type Adjustments = map<string, real>

  const DEFAULT_ADJUSTMENTS: Adjustments := map["zoom" := 1.0, "x" := 0.0, "y" := 0.0]

  /** `_adjustments || { zoom: 1, x: 0, y: 0 }`. */
  function AdjustmentsOr(a: Option<Adjustments>): (r: Adjustments)
    ensures a.Some? ==> r == a.value
    ensures a.None? ==> r.Keys == {"zoom", "x", "y"} && r["zoom"] == 1.0 && r["x"] == 0.0 && r["y"] == 0.0
  {
    if a.Some? then a.value else DEFAULT_ADJUSTMENTS
  }

  /** The record being edited: its text fields and its photo adjustments. */
  datatype EditData = EditData(fields: Data, adjustments: Option<Adjustments>)

  /** `updateAdjustment(key, val)`. */
  function UpdateAdjustment(e: EditData, key: string, val: real): (r: EditData)
    ensures r.fields == e.fields
    ensures r.adjustments.Some? && key in r.adjustments.value && r.adjustments.value[key] == val
    ensures r.adjustments.value.Keys == AdjustmentsOr(e.adjustments).Keys + {key}
    ensures forall k :: k in AdjustmentsOr(e.adjustments) && k != key ==>
              r.adjustments.value[k] == AdjustmentsOr(e.adjustments)[k]
  {
    e.(adjustments := Some(AdjustmentsOr(e.adjustments)[key := val]))
  }

  /** Setting the same key twice keeps only the second value. */
  lemma UpdateAdjustmentOverwrites(e: EditData, key: string, v1: real, v2: real)
    ensures UpdateAdjustment(UpdateAdjustment(e, key, v1), key, v2) == UpdateAdjustment(e, key, v2)
  {
    var base := AdjustmentsOr(e.adjustments);
    assert base[key := v1][key := v2] == base[key := v2];
  }

  /** `_adjustments?.zoom || 1`. */
  function Zoom(a: Option<Adjustments>): (z: real)
    ensures z != 0.0
  {
    if a.Some? && "zoom" in a.value && a.value["zoom"] != 0.0 then a.value["zoom"] else 1.0
  }

  const ZOOM_STEP: real := 0.1
  const MIN_ZOOM: real := 0.1

  function ZoomOut(e: EditData): (r: EditData)
    ensures Zoom(r.adjustments) >= MIN_ZOOM
    ensures Zoom(e.adjustments) >= MIN_ZOOM + ZOOM_STEP ==>
              Zoom(r.adjustments) == Zoom(e.adjustments) - ZOOM_STEP
    ensures Zoom(e.adjustments) < MIN_ZOOM + ZOOM_STEP ==> Zoom(r.adjustments) == MIN_ZOOM
    ensures r.fields == e.fields
  {
    var z := Zoom(e.adjustments) - ZOOM_STEP;
    UpdateAdjustment(e, "zoom", if z < MIN_ZOOM then MIN_ZOOM else z)
  }

  function ZoomIn(e: EditData): (r: EditData)
    ensures Zoom(e.adjustments) + ZOOM_STEP != 0.0 ==> Zoom(r.adjustments) == Zoom(e.adjustments) + ZOOM_STEP
    ensures Zoom(e.adjustments) + ZOOM_STEP == 0.0 ==> Zoom(r.adjustments) == 1.0
    ensures r.fields == e.fields
  {
    UpdateAdjustment(e, "zoom", Zoom(e.adjustments) + ZOOM_STEP)
  }

  /** Zooming in and back out returns to the zoom the user had. */
  lemma ZoomInThenOut(e: EditData)
    requires Zoom(e.adjustments) >= MIN_ZOOM
    ensures Zoom(ZoomOut(ZoomIn(e)).adjustments) == Zoom(e.adjustments)
    ensures ZoomOut(ZoomIn(e)).fields == e.fields
  {
  }

  // ---------------------------------------------------------- download name

  predicate IsAsciiAlnum(c: char) {
    'a' <= c <= 'z' || 'A' <= c <= 'Z' || '0' <= c <= '9'
  }

  predicate IsSafeChar(c: char) {
    'a' <= c <= 'z' || '0' <= c <= '9' || c == '_'
  }

  /** `replace(/[^a-z0-9]/gi, '_').toLowerCase()`. */
  function SafeName(name: string): (r: string)
    ensures |r| == |name|
    ensures forall i :: 0 <= i < |r| ==> IsSafeChar(r[i])
    ensures forall i :: 0 <= i < |r| ==> (r[i] == '_' <==> !IsAsciiAlnum(name[i]) || name[i] == '_')
    ensures forall i :: 0 <= i < |r| && IsAsciiAlnum(name[i]) ==> r[i] == LowerChar(name[i])
  {
    seq(|name|, i requires 0 <= i < |name| =>
      if IsAsciiAlnum(name[i]) then LowerChar(name[i]) else '_')
  }

  /** A name already made of safe characters is kept as it is, so making a
      name safe twice changes nothing. */
  lemma SafeNameIdempotent(name: string)
    ensures SafeName(SafeName(name)) == SafeName(name)
    ensures (forall i :: 0 <= i < |name| ==> IsSafeChar(name[i])) ==> SafeName(name) == name
  {
  }

  /** `<safe batch name>_<index + 1>.png`: the batch part has the batch
      name's length and only safe characters, and the number between it and
      the extension reads back as the 1-based record number. */
  function DownloadName(batchName: string, index: nat): (f: string)
    ensures |f| > |batchName| + 5
    ensures f[..|batchName|] == SafeName(batchName) && f[|batchName|] == '_'
    ensures f[|f| - 4..] == ".png"
    ensures forall i :: |batchName| < i < |f| - 4 ==> IsDigit(f[i])
    ensures DigitsValue(f[|batchName| + 1..|f| - 4]) == index + 1
  {
    var num := NatToString(index + 1);
    var f := SafeName(batchName) + "_" + num + ".png";
    assert f[|batchName| + 1..|f| - 4] == num;
    NatToStringRoundTrip(index + 1);
    f
  }

  // -------------------------------------------------------------- the pager

  function FirstRecord(i: nat): (r: nat)
    ensures r == 0
  {
    if i == 0 then i else 0
  }

  function PrevRecord(i: nat): (r: nat)
    ensures i == 0 ==> r == 0
    ensures i > 0 ==> r == i - 1
  {
    if i == 0 then i else i - 1
  }

  function NextRecord(i: nat, n: nat): (r: nat)
    ensures i >= n - 1 ==> r == i
    ensures i < n - 1 ==> r == i + 1
  {
    if i >= n - 1 then i else i + 1
  }

  function LastRecord(i: nat, n: nat): (r: nat)
    ensures i >= n - 1 ==> r == i
    ensures i < n - 1 ==> r == n - 1
  {
    if i >= n - 1 then i else n - 1
  }

  /** The four buttons keep the index on a record. */
  lemma RecordNavigationInRange(i: nat, n: nat)
    requires n >= 1 && i <= n - 1
    ensures FirstRecord(i) <= n - 1 && PrevRecord(i) <= n - 1
    ensures NextRecord(i, n) <= n - 1 && LastRecord(i, n) <= n - 1
  {
  }
}

=== FILE: print_queue.dfy ===
/** The print page: pre-flight validation of a batch, pairing students two
    per A4 sheet, the failed-card list, pair navigation and the batch
    export decision. */
module PrintQueue {
  import opened Common
  import opened Text
  import opened Records
  import opened CardRender
  import opened SheetLayout
  import opened DataService

  // -------------------------------------------------------------- validation

  datatype BatchIssue = MissingPhoto(admNo: string) | DuplicateAdmNo(admNo: string)

  function IssueMessage(e: BatchIssue): string {
    match e
    case MissingPhoto(a) => "Missing photo for " + a
    case DuplicateAdmNo(a) => "Duplicate ADM_NO: " + a
  }

  /** `validateBatch`'s loop from a student on, with the admission numbers
      seen so far. */
  function ValidateFrom(ss: seq<Student>, seen: set<string>): (errors: seq<BatchIssue>)
  {
    if ss == [] then []
    else ValidateHead(ss[0], seen) + ValidateFrom(ss[1..], seen + {ss[0].admNo})
  }

  function ValidateBatch(students: seq<Student>): (errors: seq<BatchIssue>)
  {
    ValidateFrom(students, {})
  }

  function AdmNos(ss: seq<Student>): set<string> {
    set s | s in ss :: s.admNo
  }

  predicate IsMissing(e: BatchIssue) { e.MissingPhoto? }
  predicate IsDuplicate(e: BatchIssue) { e.DuplicateAdmNo? }

  predicate LacksPhoto(s: Student) { !HasPhoto(s) }

  function MissingIssue(s: Student): BatchIssue { MissingPhoto(s.admNo) }

  /** The "Missing photo" issues are exactly the students without a photo,
      one each, in batch order. */
  lemma {:induction false} MissingPhotoIssues(ss: seq<Student>, seen: set<string>)
    ensures Filter(IsMissing, ValidateFrom(ss, seen)) == Map(MissingIssue, Filter(LacksPhoto, ss))
  {
    if ss != [] {
      var s := ss[0];
      var tail := ValidateFrom(ss[1..], seen + {s.admNo});
      var head := ValidateHead(s, seen);
      assert ValidateFrom(ss, seen) == head + tail;
      FilterAppend(IsMissing, head, tail);
      MissingInHead(s, seen);
      MissingPhotoIssues(ss[1..], seen + {s.admNo});
      assert ss == [s] + ss[1..];
      FilterAppend(LacksPhoto, [s], ss[1..]);
      MapAppend(MissingIssue, Filter(LacksPhoto, [s]), Filter(LacksPhoto, ss[1..]));
    }
  }

  /** The issues one student adds before the rest of the batch. */
  function ValidateHead(s: Student, seen: set<string>): seq<BatchIssue> {
    (if HasPhoto(s) then [] else [MissingPhoto(s.admNo)])
    + (if s.admNo in seen then [DuplicateAdmNo(s.admNo)] else [])
  }

  lemma MissingInHead(s: Student, seen: set<string>)
    ensures Filter(IsMissing, ValidateHead(s, seen)) == Map(MissingIssue, Filter(LacksPhoto, [s]))
  {
    var miss: seq<BatchIssue> := if HasPhoto(s) then [] else [MissingPhoto(s.admNo)];
    var dup: seq<BatchIssue> := if s.admNo in seen then [DuplicateAdmNo(s.admNo)] else [];
    assert ValidateHead(s, seen) == miss + dup;
    FilterAppend(IsMissing, miss, dup);
    FilterNone(IsMissing, dup);
    FilterAll(IsMissing, miss);
    assert [s][1..] == [];
    assert Map(MissingIssue, Filter(LacksPhoto, [s])) == miss;
  }

  /** One step of the loop adds a duplicate issue exactly when the student's
      admission number was seen before. */
  lemma DuplicateStep(ss: seq<Student>, seen: set<string>)
    requires ss != []
    ensures CountIf(IsDuplicate, ValidateFrom(ss, seen))
            == (if ss[0].admNo in seen then 1 else 0)
               + CountIf(IsDuplicate, ValidateFrom(ss[1..], seen + {ss[0].admNo}))
  {
    var s := ss[0];
    var miss: seq<BatchIssue> := if HasPhoto(s) then [] else [MissingPhoto(s.admNo)];
    var dup: seq<BatchIssue> := if s.admNo in seen then [DuplicateAdmNo(s.admNo)] else [];
    var tail := ValidateFrom(ss[1..], seen + {s.admNo});
    CountIfAppend(IsDuplicate, miss + dup, tail);
    CountIfAppend(IsDuplicate, miss, dup);
  }

  lemma AdmNosCons(ss: seq<Student>)
    requires ss != []
    ensures AdmNos(ss) == {ss[0].admNo} + AdmNos(ss[1..])
  {
    assert ss == [ss[0]] + ss[1..];
  }

  /** Each repeat of an admission number already seen yields one
      "Duplicate ADM_NO" issue. */
  lemma {:induction false} DuplicateCount(ss: seq<Student>, seen: set<string>)
    ensures CountIf(IsDuplicate, ValidateFrom(ss, seen)) + |seen + AdmNos(ss)| == |ss| + |seen|
  {
    if ss != [] {
      var a := ss[0].admNo;
      DuplicateStep(ss, seen);
      DuplicateCount(ss[1..], seen + {a});
      AdmNosCons(ss);
      assert seen + AdmNos(ss) == (seen + {a}) + AdmNos(ss[1..]);
      if a in seen {
        assert seen + {a} == seen;
      } else {
        assert |seen + {a}| == |seen| + 1;
      }
    }
  }

  /** For a whole batch: duplicates = students − distinct admission numbers. */
  lemma DuplicateIssuesCount(students: seq<Student>)
    ensures CountIf(IsDuplicate, ValidateBatch(students)) == |students| - |AdmNos(students)|
  {
    DuplicateCount(students, {});
    assert {} + AdmNos(students) == AdmNos(students);
  }

  // ----------------------------------------------------------------- pairing

  /** The number of sheets, `Math.ceil(n / 2)`. */
  function SheetCount(n: nat): (c: nat)
    ensures 2 * c == n || 2 * c == n + 1
  {
    (n + 1) / 2
  }

  datatype Pair = Pair(first: Student, second: Option<Student>)

  /** Sheet `i` holds `students[2i]` and, when it exists, `students[2i+1]`. */
  function Pairs(students: seq<Student>): (ps: seq<Pair>)
    ensures |ps| == SheetCount(|students|)
    ensures forall i :: 0 <= i < |ps| ==> ps[i].first == students[2 * i]
    ensures forall i :: 0 <= i < |ps| ==>
              (ps[i].second.Some? <==> 2 * i + 1 < |students|)
              && (ps[i].second.Some? ==> ps[i].second.value == students[2 * i + 1])
  {
    seq(SheetCount(|students|), i requires 0 <= i < SheetCount(|students|) =>
      Pair(students[2 * i], if 2 * i + 1 < |students| then Some(students[2 * i + 1]) else None))
  }

  /** Slot 2 is empty only on the last sheet, and only for an odd count. */
  lemma EmptySecondSlot(students: seq<Student>, i: nat)
    requires i < |Pairs(students)|
    ensures Pairs(students)[i].second.None? <==> i == |Pairs(students)| - 1 && |students| % 2 == 1
  {
  }

  function PairStudents(p: Pair): seq<Student> {
    [p.first] + (if p.second.Some? then [p.second.value] else [])
  }

  function Flatten(ps: seq<Pair>): seq<Student> {
    if ps == [] then [] else PairStudents(ps[0]) + Flatten(ps[1..])
  }

  /** Reading the sheets slot by slot gives back the batch: every student
      is on exactly one slot, in order. */
  lemma {:induction false} PairsFlatten(students: seq<Student>)
    ensures Flatten(Pairs(students)) == students
    decreases |students|
  {
    if |students| > 0 {
      var ps := Pairs(students);
      if |students| == 1 {
        assert ps == [Pair(students[0], None)];
        assert Flatten(ps[1..]) == [];
      } else {
        var rest := students[2..];
        PairsFlatten(rest);
        assert ps[1..] == Pairs(rest);
        assert PairStudents(ps[0]) == students[..2];
        assert students == students[..2] + rest;
      }
    }
  }

  // ---------------------------------------------------------- failed cards

  const MISSING_PHOTO_REASON: string := "Missing Photo"

  function Fail(s: Student): Student {
    s.(exceptionReason := Some(MISSING_PHOTO_REASON))
  }

  function FailedInPair(p: Pair): seq<Student> {
    (if HasPhoto(p.first) then [] else [Fail(p.first)])
    + (if p.second.Some? && !HasPhoto(p.second.value) then [Fail(p.second.value)] else [])
  }

  /** The export loop's failed list, sheet by sheet. */
  function FailedStudents(ps: seq<Pair>): seq<Student> {
    if ps == [] then [] else FailedInPair(ps[0]) + FailedStudents(ps[1..])
  }

  function FailedList(ss: seq<Student>): seq<Student> {
    Map(Fail, Filter(LacksPhoto, ss))
  }

  lemma FailedListAppend(a: seq<Student>, b: seq<Student>)
    ensures FailedList(a + b) == FailedList(a) + FailedList(b)
  {
    FilterAppend(LacksPhoto, a, b);
    MapAppend(Fail, Filter(LacksPhoto, a), Filter(LacksPhoto, b));
  }

  lemma FailedListOne(s: Student)
    ensures FailedList([s]) == if HasPhoto(s) then [] else [Fail(s)]
  {
    assert [s][1..] == [];
  }

  /** One sheet's failures are the failed list of its students. */
  lemma FailedInPairIsList(p: Pair)
    ensures FailedInPair(p) == FailedList(PairStudents(p))
  {
    FailedListOne(p.first);
    if p.second.Some? {
      FailedListOne(p.second.value);
      FailedListAppend([p.first], [p.second.value]);
    } else {
      assert PairStudents(p) == [p.first];
    }
  }

  lemma {:induction false} FailedFromSheets(ps: seq<Pair>)
    ensures FailedStudents(ps) == FailedList(Flatten(ps))
  {
    if ps != [] {
      FailedFromSheets(ps[1..]);
      FailedInPairIsList(ps[0]);
      FailedListAppend(PairStudents(ps[0]), Flatten(ps[1..]));
    }
  }

  /** Every student without a photo is reported once, with reason
      "Missing Photo", in batch order; no one else is. */
  lemma FailedStudentsAreMissingPhotos(students: seq<Student>)
    ensures FailedStudents(Pairs(students)) == FailedList(students)
  {
    FailedFromSheets(Pairs(students));
    PairsFlatten(students);
  }

  // -------------------------------------------------------------- navigation

  /** The last pair index the "next" button lets the user reach. */
  function LastPair(n: nat): nat {
    if SheetCount(n) == 0 then 0 else SheetCount(n) - 1
  }

  predicate PairIndexOk(i: int, n: nat) {
    0 <= i <= LastPair(n)
  }

  /** The "previous" button, disabled at the first pair. */
  function PrevPair(i: nat): (r: nat)
    ensures i == 0 ==> r == 0
    ensures i > 0 ==> r == i - 1
  {
    if i == 0 then 0 else i - 1
  }

  /** The "next" button, disabled from the last pair on. */
  function NextPair(i: nat, n: nat): (r: nat)
    ensures i >= SheetCount(n) - 1 ==> r == i
    ensures i < SheetCount(n) - 1 ==> r == i + 1
  {
    if i >= SheetCount(n) - 1 then i else i + 1
  }

  /** Loading a batch shows its first pair, and the buttons never leave
      the pairs. */
  lemma PairNavigationInRange(i: nat, n: nat)
    requires PairIndexOk(i, n)
    ensures PairIndexOk(0, n)
    ensures PairIndexOk(PrevPair(i), n)
    ensures PairIndexOk(NextPair(i, n), n)
  {
  }

  /** Print.tsx's initial profile: the first flagged default, else the first,
      falling back to the first profile's id when the default's id is falsy. */
  function SelectedProfileId(profiles: seq<Profile>): (id: Option<int>)
    ensures |profiles| == 0 ==> id.None?
    ensures |profiles| > 0 ==> id == PickDefault(profiles).value.id || id == profiles[0].id
    ensures forall k :: 0 <= k < |profiles| && IsDefaultProfile(profiles[k])
                          && (forall j :: 0 <= j < k ==> !IsDefaultProfile(profiles[j])) ==>
              id == (if IdPresent(profiles[k].id) then profiles[k].id else profiles[0].id)
    ensures (forall k :: 0 <= k < |profiles| ==> !IsDefaultProfile(profiles[k])) && |profiles| > 0 ==>
              id == profiles[0].id
  {
    if |profiles| == 0 then None
    else
      var p := PickDefault(profiles).value;
      if IdPresent(p.id) then p.id else profiles[0].id
  }

  // ------------------------------------------------------------------ export

  /** The confirmation text lists at most five issues and then "...". */
  datatype Prompt = Prompt(total: nat, shown: seq<string>, more: bool)

  function ConfirmPrompt(errors: seq<BatchIssue>): (p: Prompt)
    ensures p.total == |errors|
    ensures |p.shown| == if |errors| <= 5 then |errors| else 5
    ensures forall k :: 0 <= k < |p.shown| ==> p.shown[k] == IssueMessage(errors[k])
    ensures p.more <==> |errors| > 5
  {
    var n := if |errors| <= 5 then |errors| else 5;
    Prompt(|errors|, Map(IssueMessage, errors[..n]), |errors| > 5)
  }

  function JoinLines(lines: seq<string>): string {
    if lines == [] then ""
    else if |lines| == 1 then lines[0]
    else lines[0] + "\n" + JoinLines(lines[1..])
  }

  /** The text passed to `confirm`. */
  function PromptText(p: Prompt): string {
    "Found " + NatToString(p.total) + " potential issues:\n" + JoinLines(p.shown)
    + (if p.more then "\n..." else "") + "\n\nContinue anyway?"
  }

  /** The sheet for one pair, as both the preview and the export draw it:
      no photos are passed to the sheet renderer. */
  function PairSheet(pr: Pair, objs: seq<CardObject>, p: Profile): (sh: Sheet)
    ensures |sh.placements| == if pr.second.Some? then 2 else 1
    ensures sh.placements[0].at == Slot1Box(p)
  {
    RenderA4Sheet(objs, pr.first.data,
                  if pr.second.Some? then Some(pr.second.value.data) else None,
                  p, None, None)
  }

  /** `updatePreview`: the sheet of the current pair, or nothing when a
      selection is missing or the pair index has run past the students. */
  function PreviewSheet(students: seq<Student>, index: nat,
                        profiles: seq<Profile>, layouts: seq<Layout>,
                        profileId: Option<int>, layoutId: Option<int>,
                        parse: string -> seq<CardObject>): (sh: Option<Sheet>)
    ensures sh.Some? ==> 2 * index < |students| && IdPresent(profileId) && IdPresent(layoutId)
    ensures sh.Some? ==> ProfileById(profiles, profileId).Some? && LayoutById(layouts, layoutId).Some?
    ensures sh.Some? ==> |sh.value.placements| == (if 2 * index + 1 < |students| then 2 else 1)
  {
    if |students| == 0 || !IdPresent(profileId) || !IdPresent(layoutId) then None
    else if 2 * index >= |students| then None
    else
      var profile := ProfileById(profiles, profileId);
      var layout := LayoutById(layouts, layoutId);
      if profile.None? || layout.None? then None
      else Some(PairSheet(Pairs(students)[index], parse(layout.value.content), profile.value))
  }

  datatype PrintOutcome =
    | NotStarted
    | Declined(prompt: Prompt)
    | PdfError
    | Exported(sheets: seq<Sheet>, title: string, failed: seq<Student>,
               report: Option<seq<ReportRow>>)

  const FALLBACK_TITLE: string := "Batch Export"

  /** `handlePrintAll`. `parse` is the layout loader; the two booleans are
      the user's answers to the "Continue anyway?" and "Generate Exception
      Report?" prompts. A missing profile or layout makes the first sheet
      throw, which ends in the error alert. */
  function PrintAll(students: seq<Student>, profiles: seq<Profile>, layouts: seq<Layout>,
                    batches: seq<Batch>, batchId: Option<int>,
                    profileId: Option<int>, layoutId: Option<int>,
                    parse: string -> seq<CardObject>, continueAnyway: bool, wantReport: bool)
    : (o: PrintOutcome)
    ensures (|students| == 0 || !IdPresent(profileId) || !IdPresent(layoutId)) <==> o.NotStarted?
    ensures o.Declined? <==> !o.NotStarted? && ValidateBatch(students) != [] && !continueAnyway
    ensures o.Declined? ==> o.prompt == ConfirmPrompt(ValidateBatch(students))
    ensures o.PdfError? <==> !o.NotStarted? && !o.Declined?
                             && (ProfileById(profiles, profileId).None? || LayoutById(layouts, layoutId).None?)
    ensures o.Exported? ==> |o.sheets| == SheetCount(|students|)
    ensures o.Exported? ==> o.failed == FailedList(students)
    ensures o.Exported? ==> (o.report.Some? <==> o.failed != [] && wantReport)
    ensures o.Exported? && o.report.Some? ==> o.report.value == ExceptionRows(o.failed)
    ensures o.Exported? ==> o.title != ""
    ensures o.Exported? ==>
              o.title == (if BatchById(batches, batchId).Some? && BatchById(batches, batchId).value.name != ""
                          then BatchById(batches, batchId).value.name else FALLBACK_TITLE)
  {
    if |students| == 0 || !IdPresent(profileId) || !IdPresent(layoutId) then NotStarted
    else
      var errors := ValidateBatch(students);
      if errors != [] && !continueAnyway then Declined(ConfirmPrompt(errors))
      else
        var profile := ProfileById(profiles, profileId);
        var layout := LayoutById(layouts, layoutId);
        if profile.None? || layout.None? then PdfError
        else
          var ps := Pairs(students);
          var objs := parse(layout.value.content);
          var sheets := Map((pr: Pair) => PairSheet(pr, objs, profile.value), ps);
          var failed := FailedStudents(ps);
          FailedStudentsAreMissingPhotos(students);
          var batch := BatchById(batches, batchId);
          var title := if batch.Some? && batch.value.name != "" then batch.value.name else FALLBACK_TITLE;
          Exported(sheets, title, failed,
                   if failed != [] && wantReport then Some(ExceptionRows(failed)) else None)
  }

  /** What the preview shows for a pair is the sheet the export prints for it. */
  lemma PreviewMatchesExport(students: seq<Student>, index: nat,
                             profiles: seq<Profile>, layouts: seq<Layout>,
                             batches: seq<Batch>, batchId: Option<int>,
                             profileId: Option<int>, layoutId: Option<int>,
                             parse: string -> seq<CardObject>, continueAnyway: bool, wantReport: bool)
    requires index < SheetCount(|students|)
    requires PrintAll(students, profiles, layouts, batches, batchId, profileId, layoutId,
                      parse, continueAnyway, wantReport).Exported?
    ensures PreviewSheet(students, index, profiles, layouts, profileId, layoutId, parse)
            == Some(PrintAll(students, profiles, layouts, batches, batchId, profileId, layoutId,
                             parse, continueAnyway, wantReport).sheets[index])
  {
  }
}

=== FILE: records.dfy ===
/** The entities the application stores: printer profiles, card layouts,
    import batches and students, with the JavaScript truthiness rules the
    pages apply to their fields. */
module Records {
  import opened Common

  /** A student's spreadsheet row, column name to cell text. */
  type Data = map<string, string>

  /** `data[key]` is truthy: present and not the empty string. */
  predicate Truthy(d: Data, key: string) {
    key in d && d[key] != ""
  }

  /** `data[key] || fallback`. */
  function ValueOr(d: Data, key: string, fallback: string): (r: string)
    ensures Truthy(d, key) ==> r == d[key]
    ensures !Truthy(d, key) ==> r == fallback
  {
    if Truthy(d, key) then d[key] else fallback
  }

  /** An optional text column (a path, a name) is truthy. */
  predicate Present(t: Option<string>) {
    t.Some? && t.value != ""
  }

  /** An optional row id is truthy: present and not 0. */
  predicate IdPresent(id: Option<int>) {
    id.Some? && id.value != 0
  }

  datatype Profile = Profile(
    id: Option<int>,
    name: string,
    offsetX: real,
    offsetY: real,
    slot2YOffset: real,
    scaleX: real,
    scaleY: real,
    isDefault: int)

  datatype Layout = Layout(id: int, name: string, content: string)

  /** `createdAt` is the database timestamp, ordered like the time it denotes. */
  datatype Batch = Batch(
    id: int,
    name: string,
    createdAt: int,
    layoutId: Option<int>,
    profileId: Option<int>)

  datatype Student = Student(
    id: int,
    batchId: Option<int>,
    admNo: string,
    data: Data,
    photoPath: Option<string>,
    printStatus: string,
    exceptionReason: Option<string>)

  predicate HasPhoto(s: Student) {
    Present(s.photoPath)
  }

  predicate IsDefaultProfile(p: Profile) {
    p.isDefault != 0
  }

  /** `profiles.find(p => p.isDefault) || profiles[0]`: the first profile
      flagged default, else the first profile, else nothing. */
  function PickDefault(profiles: seq<Profile>): (r: Option<Profile>)
    ensures r.None? <==> |profiles| == 0
    ensures r.Some? ==> r.value in profiles
    ensures r.Some? && IsDefaultProfile(r.value) ==>
              exists k :: 0 <= k < |profiles| && profiles[k] == r.value
                && forall j :: 0 <= j < k ==> !IsDefaultProfile(profiles[j])
    ensures r.Some? && !IsDefaultProfile(r.value) ==>
              r.value == profiles[0] && forall j :: 0 <= j < |profiles| ==> !IsDefaultProfile(profiles[j])
  {
    match FirstDefault(profiles)
    case Some(k) => Some(profiles[k])
    case None => if |profiles| == 0 then None else Some(profiles[0])
  }

  /** The index of the first profile flagged default. */
  function FirstDefault(profiles: seq<Profile>): (k: Option<nat>)
    ensures k.Some? ==> k.value < |profiles| && IsDefaultProfile(profiles[k.value])
    ensures k.Some? ==> forall j :: 0 <= j < k.value ==> !IsDefaultProfile(profiles[j])
    ensures k.None? ==> forall j :: 0 <= j < |profiles| ==> !IsDefaultProfile(profiles[j])
  {
    if |profiles| == 0 then None
    else if IsDefaultProfile(profiles[0]) then Some(0)
    else match FirstDefault(profiles[1..])
      case Some(k) => Some(k + 1)
      case None => None
  }

  /** `profiles.find(p => p.id === id)` and its kin: the first row with
      that id. */
  function ProfileById(profiles: seq<Profile>, id: Option<int>): Option<Profile> {
    Find((p: Profile) => p.id == id, profiles)
  }

  function LayoutById(layouts: seq<Layout>, id: Option<int>): Option<Layout> {
    Find((l: Layout) => Some(l.id) == id, layouts)
  }

  function BatchById(batches: seq<Batch>, id: Option<int>): Option<Batch> {
    Find((b: Batch) => Some(b.id) == id, batches)
  }
}

=== FILE: sheet_layout.dfy ===
/** A4 sheet composition (`renderA4Sheet`, `printTestSheet`) and the PDF
    export (`exportToPdf`): where each card goes under a printer profile,
    one PDF page per sheet, and the output file name. */
module SheetLayout {
  import opened Common
  import opened Text
  import opened Units
  import opened Records
  import opened CardRender

  /** `canvas.width = mmToPx(A4_WIDTH_MM)`: the canvas keeps the integer part. */
  const SHEET_WIDTH_PX: int := MmToPx(A4_WIDTH_MM).Floor
  const SHEET_HEIGHT_PX: int := MmToPx(A4_HEIGHT_MM).Floor

  lemma SheetSize()
    ensures SHEET_WIDTH_PX == 2480 && SHEET_HEIGHT_PX == 3507
    ensures SHEET_WIDTH_PX as real <= MmToPx(A4_WIDTH_MM) < SHEET_WIDTH_PX as real + 1.0
    ensures SHEET_HEIGHT_PX as real <= MmToPx(A4_HEIGHT_MM) < SHEET_HEIGHT_PX as real + 1.0
  {
    assert MmToPx(A4_WIDTH_MM) == 63000.0 / 25.4;
    assert 2480.0 <= MmToPx(A4_WIDTH_MM) < 2481.0;
    assert MmToPx(A4_HEIGHT_MM) == 89100.0 / 25.4;
    assert 3507.0 <= MmToPx(A4_HEIGHT_MM) < 3508.0;
  }

  /** Where slot 1's card is drawn, in sheet pixels. */
  function Slot1Box(p: Profile): (b: Box)
    ensures b.left * MM_PER_INCH == (SLOT1_X_MM + p.offsetX) * DPI
    ensures b.top * MM_PER_INCH == (SLOT1_Y_MM + p.offsetY) * DPI
  {
    Box(MmToPx(SLOT1_X_MM + p.offsetX), MmToPx(SLOT1_Y_MM + p.offsetY),
        CR80_WIDTH_PX as real * p.scaleX, CR80_HEIGHT_PX as real * p.scaleY)
  }

  /** Where slot 2's card is drawn: slot 1's X, slot 2's anchor plus the
      profile's slot-2 correction. */
  function Slot2Box(p: Profile): (b: Box)
    ensures b.left * MM_PER_INCH == (SLOT1_X_MM + p.offsetX) * DPI
    ensures b.top * MM_PER_INCH == (SLOT2_Y_MM + p.offsetY + p.slot2YOffset) * DPI
  {
    Box(MmToPx(SLOT1_X_MM + p.offsetX), MmToPx(SLOT2_Y_MM + p.offsetY + p.slot2YOffset),
        CR80_WIDTH_PX as real * p.scaleX, CR80_HEIGHT_PX as real * p.scaleY)
  }

  /** The two slots are the same size, share their left edge, and slot 2 is
      one card height plus the gap plus the correction further down. */
  lemma SlotGeometry(p: Profile)
    ensures Slot2Box(p).left == Slot1Box(p).left
    ensures Slot2Box(p).width == Slot1Box(p).width == 1016.0 * p.scaleX
    ensures Slot2Box(p).height == Slot1Box(p).height == 638.0 * p.scaleY
    ensures Slot2Box(p).top - Slot1Box(p).top
            == MmToPx(CR80_HEIGHT_MM + SLOT_GAP_MM + p.slot2YOffset)
  {
    CardWidthPx();
    CardHeightPx();
  }

  predicate Inside(b: Box, width: int, height: int) {
    0.0 <= b.left && b.left + b.width <= width as real
    && 0.0 <= b.top && b.top + b.height <= height as real
  }

  /** An uncorrected profile: no offsets, unit scale. */
  predicate Uncorrected(p: Profile) {
    p.offsetX == 0.0 && p.offsetY == 0.0 && p.slot2YOffset == 0.0
    && p.scaleX == 1.0 && p.scaleY == 1.0
  }

  /** With an uncorrected profile both cards lie on the sheet, one above
      the other without overlapping. */
  lemma UncorrectedSlotsFit(p: Profile)
    requires Uncorrected(p)
    ensures Inside(Slot1Box(p), SHEET_WIDTH_PX, SHEET_HEIGHT_PX)
    ensures Inside(Slot2Box(p), SHEET_WIDTH_PX, SHEET_HEIGHT_PX)
    ensures Slot1Box(p).top + Slot1Box(p).height < Slot2Box(p).top
  {
    SheetSize();
    SlotGeometry(p);
    assert Slot1Box(p).left == 31.8 * 300.0 / 25.4;
    assert Slot1Box(p).top == 12.3 * 300.0 / 25.4;
    assert Slot2Box(p).top == 97.8 * 300.0 / 25.4;
  }

  /** A card drawn on the sheet: the rendered objects and the box they are
      scaled into. */
  datatype Placement = Placement(card: seq<CardObject>, at: Box)

  datatype Sheet = Sheet(width: int, height: int, placements: seq<Placement>)

  /** `renderA4Sheet`: student 1 always in slot 1, student 2 in slot 2 only
      when there is one. */
  function RenderA4Sheet(layout: seq<CardObject>, student1: Data, student2: Option<Data>,
                         p: Profile, photo1: Option<string>, photo2: Option<string>): (sh: Sheet)
    ensures sh.width == SHEET_WIDTH_PX && sh.height == SHEET_HEIGHT_PX
    ensures |sh.placements| == if student2.Some? then 2 else 1
    ensures sh.placements[0] == Placement(RenderObjects(layout, student1, photo1), Slot1Box(p))
    ensures student2.Some? ==>
              sh.placements[1] == Placement(RenderObjects(layout, student2.value, photo2), Slot2Box(p))
  {
    var first := Placement(RenderObjects(layout, student1, photo1), Slot1Box(p));
    match student2
    case Some(d) =>
      Sheet(SHEET_WIDTH_PX, SHEET_HEIGHT_PX,
            [first, Placement(RenderObjects(layout, d, photo2), Slot2Box(p))])
    case None => Sheet(SHEET_WIDTH_PX, SHEET_HEIGHT_PX, [first])
  }

  /** The calibration test sheet: the outlines of both slots. */
  datatype TestSheet = TestSheet(width: int, height: int, outlines: seq<Box>)

  function PrintTestSheet(p: Profile): (t: TestSheet)
    ensures |t.outlines| == 2
  {
    TestSheet(SHEET_WIDTH_PX, SHEET_HEIGHT_PX, [Slot1Box(p), Slot2Box(p)])
  }

  /** The test sheet outlines exactly where a full sheet draws its cards. */
  lemma TestSheetMatchesCards(layout: seq<CardObject>, s1: Data, s2: Data, p: Profile,
                              photo1: Option<string>, photo2: Option<string>)
    ensures var sh := RenderA4Sheet(layout, s1, Some(s2), p, photo1, photo2);
            var t := PrintTestSheet(p);
            t.width == sh.width && t.height == sh.height
            && t.outlines == [sh.placements[0].at, sh.placements[1].at]
  {
  }

  /** The jsPDF calls of `exportToPdf`'s loop. */
  datatype PdfOp = AddPage | AddImage(sheet: nat)

  function PdfOps(n: nat): (ops: seq<PdfOp>)
    decreases n
  {
    if n == 0 then []
    else PdfOps(n - 1) + (if n - 1 > 0 then [AddPage] else []) + [AddImage(n - 1)]
  }

  /** A document as jsPDF builds it: pages of sheet images; a new document
      has one empty page and images go on the current (last) page. */
  function ApplyOp(doc: seq<seq<nat>>, op: PdfOp): (r: seq<seq<nat>>)
    requires |doc| >= 1
    ensures |r| >= 1
  {
    match op
    case AddPage => doc + [[]]
    case AddImage(i) => doc[..|doc| - 1] + [doc[|doc| - 1] + [i]]
  }

  function RunOps(ops: seq<PdfOp>): (doc: seq<seq<nat>>)
    ensures |doc| >= 1
  {
    if ops == [] then [[]] else ApplyOp(RunOps(ops[..|ops| - 1]), ops[|ops| - 1])
  }

  /** Page k of the exported PDF holds exactly sheet k: one page per sheet
      (and a single blank page when there are no sheets). */
  lemma {:induction false} OnePagePerSheet(n: nat)
    ensures |RunOps(PdfOps(n))| == if n == 0 then 1 else n
    ensures forall k :: 0 <= k < n ==> RunOps(PdfOps(n))[k] == [k]
    ensures n == 0 ==> RunOps(PdfOps(n)) == [[]]
    decreases n
  {
    if n > 0 {
      OnePagePerSheet(n - 1);
      var prev := PdfOps(n - 1);
      var ops := PdfOps(n);
      if n - 1 > 0 {
        assert ops == prev + [AddPage] + [AddImage(n - 1)];
        assert ops[..|ops| - 1] == prev + [AddPage];
        assert (prev + [AddPage])[..|prev + [AddPage]| - 1] == prev;
      } else {
        assert ops == [AddImage(0)];
        assert ops[..|ops| - 1] == [];
      }
    }
  }

  /** `title.replace(/\s+/g, '_')`, with `inRun` telling whether the
      preceding character was whitespace. */
  function SquashRuns(s: string, inRun: bool): (r: string)
    ensures NoWhitespace(r)
    ensures |r| <= |s|
  {
    if s == [] then []
    else if IsWhitespace(s[0]) then
      (if inRun then [] else "_") + SquashRuns(s[1..], true)
    else [s[0]] + SquashRuns(s[1..], false)
  }

  function ReplaceWhitespaceRuns(s: string): (r: string)
    ensures NoWhitespace(r)
  {
    SquashRuns(s, false)
  }

  /** A title without whitespace is kept as it is. */
  lemma {:induction false} SquashKeepsPlainText(s: string, inRun: bool)
    requires NoWhitespace(s)
    ensures SquashRuns(s, inRun) == s
  {
    if s != [] {
      SquashKeepsPlainText(s[1..], false);
    }
  }

  lemma {:induction false} SquashWordPrefix(a: string, rest: string, inRun: bool)
    requires NoWhitespace(a) && a != []
    ensures SquashRuns(a + rest, inRun) == a + SquashRuns(rest, false)
  {
    assert (a + rest)[0] == a[0];
    assert (a + rest)[1..] == a[1..] + rest;
    if |a| > 1 {
      SquashWordPrefix(a[1..], rest, false);
    } else {
      assert a[1..] + rest == rest;
    }
  }

  lemma {:induction false} SquashInsideRun(w: string, rest: string)
    requires forall i :: 0 <= i < |w| ==> IsWhitespace(w[i])
    ensures SquashRuns(w + rest, true) == SquashRuns(rest, true)
  {
    if w != [] {
      var s := w + rest;
      assert s[0] == w[0] && IsWhitespace(s[0]);
      assert s[1..] == w[1..] + rest;
      assert SquashRuns(s, true) == [] + SquashRuns(s[1..], true);
      SquashInsideRun(w[1..], rest);
    } else {
      assert w + rest == rest;
    }
  }

  /** A word, a whitespace run and the rest of the title: the run becomes a
      single `_`. */
  lemma SquashOneRun(a: string, w: string, b: string)
    requires NoWhitespace(a)
    requires w != [] && forall i :: 0 <= i < |w| ==> IsWhitespace(w[i])
    requires b == [] || !IsWhitespace(b[0])
    ensures ReplaceWhitespaceRuns(a + w + b) == a + "_" + ReplaceWhitespaceRuns(b)
  {
    if a != [] {
      SquashWordPrefix(a, w + b, false);
      assert a + w + b == a + (w + b);
    } else {
      assert a + w + b == w + b;
    }
    assert (w + b)[0] == w[0];
    assert (w + b)[1..] == w[1..] + b;
    SquashInsideRun(w[1..], b);
  }

  /** `${title.replace(/\s+/g, '_')}_${timestamp}.pdf` */
  function PdfFileName(title: string, timestamp: nat): (name: string)
    ensures |name| >= 6
    ensures NoWhitespace(name[..|name| - 4])
    ensures name[|name| - 4..] == ".pdf"
    ensures name == ReplaceWhitespaceRuns(title) + "_" + NatToString(timestamp) + ".pdf"
  {
    var stamp := NatToString(timestamp);
    assert forall i :: 0 <= i < |stamp| ==> !IsWhitespace(stamp[i]);
    ReplaceWhitespaceRuns(title) + "_" + stamp + ".pdf"
  }

  /** What `exportToPdf` saves: the pages and the file name. */
  datatype PdfExport = PdfExport(pages: seq<seq<nat>>, fileName: string)

  const DEFAULT_TITLE: string := "Student IDs"

  function ExportToPdf(sheetCount: nat, title: Option<string>, timestamp: nat): (e: PdfExport)
    ensures sheetCount > 0 ==> |e.pages| == sheetCount
    ensures forall k :: 0 <= k < sheetCount ==> e.pages[k] == [k]
    ensures e.fileName == PdfFileName(if title.Some? then title.value else DEFAULT_TITLE, timestamp)
  {
    OnePagePerSheet(sheetCount);
    PdfExport(RunOps(PdfOps(sheetCount)),
              PdfFileName(if title.Some? then title.value else DEFAULT_TITLE, timestamp))
  }

  /** A title without whitespace, such as the test sheet's
      `Calibration_Test_Sheet`, is used as it is in the file name. */
  lemma PlainTitleFileName(title: string, timestamp: nat)
    requires NoWhitespace(title)
    ensures PdfFileName(title, timestamp) == title + "_" + NatToString(timestamp) + ".pdf"
  {
    SquashKeepsPlainText(title, false);
  }
}

=== FILE: store.dfy ===
/** The observable behaviour of the main process's IPC handlers over the
    four tables: printer profiles, layouts, batches and students. Tables are
    sequences in row-id order; ids come from per-table counters, as SQLite's
    AUTOINCREMENT hands them out. */
module Store {
  import opened Common
  import opened Records
  import opened PhotoService

  datatype Store = Store(
    profiles: seq<Profile>,
    layouts: seq<Layout>,
    batches: seq<Batch>,
    students: seq<Student>,
    nextProfileId: int,
    nextLayoutId: int,
    nextBatchId: int,
    nextStudentId: int)

  /** Row ids are positive, below their counter and increasing in table
      order; student batch references are below the batch counter. */
  predicate WellFormed(st: Store) {
    && ProfilesOk(st.profiles, st.nextProfileId)
    && LayoutsOk(st.layouts, st.nextLayoutId)
    && BatchesOk(st.batches, st.nextBatchId)
    && StudentsOk(st.students, st.nextStudentId, st.nextBatchId)
    && st.nextProfileId >= 1 && st.nextLayoutId >= 1
    && st.nextBatchId >= 1 && st.nextStudentId >= 1
  }

  predicate ProfilesOk(ps: seq<Profile>, next: int) {
    && (forall i :: 0 <= i < |ps| ==> ps[i].id.Some? && 1 <= ps[i].id.value < next)
    && (forall i, j :: 0 <= i < j < |ps| ==> ps[i].id.value < ps[j].id.value)
  }

  predicate LayoutsOk(ls: seq<Layout>, next: int) {
    && (forall i :: 0 <= i < |ls| ==> 1 <= ls[i].id < next)
    && (forall i, j :: 0 <= i < j < |ls| ==> ls[i].id < ls[j].id)
  }

  predicate BatchesOk(bs: seq<Batch>, next: int) {
    && (forall i :: 0 <= i < |bs| ==> 1 <= bs[i].id < next)
    && (forall i, j :: 0 <= i < j < |bs| ==> bs[i].id < bs[j].id)
  }

  predicate StudentsOk(ss: seq<Student>, next: int, nextBatch: int) {
    && (forall i :: 0 <= i < |ss| ==> 1 <= ss[i].id < next)
    && (forall i, j :: 0 <= i < j < |ss| ==> ss[i].id < ss[j].id)
    && (forall i :: 0 <= i < |ss| && ss[i].batchId.Some? ==> ss[i].batchId.value < nextBatch)
  }

  /** A fresh database: the schema plus the seeded default tray profile. */
  function InitialStore(): (st: Store)
    ensures WellFormed(st)
    ensures |st.profiles| == 1 && IsDefaultProfile(st.profiles[0])
    ensures st.profiles[0].name == "Default Epson Tray"
    ensures st.profiles[0].offsetX == 0.0 && st.profiles[0].offsetY == 0.0
            && st.profiles[0].slot2YOffset == 0.0
    ensures st.profiles[0].scaleX == 1.0 && st.profiles[0].scaleY == 1.0
    ensures st.layouts == [] && st.batches == [] && st.students == []
  {
    Store([Profile(Some(1), "Default Epson Tray", 0.0, 0.0, 0.0, 1.0, 1.0, 1)],
          [], [], [], 2, 1, 1, 1)
  }

  // ---------------------------------------------------------------- profiles

  /** `save-profile`: with an id, overwrite the seven fields of that row;
      without one, insert a new row. */
  function SaveProfile(st: Store, p: Profile): (r: Store)
    ensures r.layouts == st.layouts && r.batches == st.batches && r.students == st.students
    ensures IdPresent(p.id) ==>
              && |r.profiles| == |st.profiles|
              && r.nextProfileId == st.nextProfileId
              && (forall i :: 0 <= i < |st.profiles| ==> r.profiles[i].id == st.profiles[i].id)
              && (forall i :: 0 <= i < |st.profiles| && st.profiles[i].id == p.id ==> r.profiles[i] == p)
              && (forall i :: 0 <= i < |st.profiles| && st.profiles[i].id != p.id ==>
                    r.profiles[i] == st.profiles[i])
    ensures !IdPresent(p.id) ==>
              && r.profiles == st.profiles + [p.(id := Some(st.nextProfileId))]
              && r.nextProfileId == st.nextProfileId + 1
  {
    if IdPresent(p.id) then
      st.(profiles := Map((row: Profile) => if row.id == p.id then p else row, st.profiles))
    else
      st.(profiles := st.profiles + [p.(id := Some(st.nextProfileId))],
          nextProfileId := st.nextProfileId + 1)
  }

  lemma SaveProfileWellFormed(st: Store, p: Profile)
    requires WellFormed(st)
    ensures WellFormed(SaveProfile(st, p))
  {
  }

  // ----------------------------------------------------------------- batches

  predicate NewestFirst(bs: seq<Batch>) {
    forall i, j :: 0 <= i < j < |bs| ==> bs[i].createdAt >= bs[j].createdAt
  }

  /** Inserts `b` into a newest-first list ahead of the first older batch. */
  function InsertNewestFirst(b: Batch, bs: seq<Batch>): (r: seq<Batch>)
    requires NewestFirst(bs)
    ensures NewestFirst(r)
    ensures multiset(r) == multiset(bs) + multiset{b}
    ensures forall x :: x in r ==> x in bs || x == b
  {
    if bs == [] then [b]
    else if bs[0].createdAt <= b.createdAt then [b] + bs
    else
      var rest := InsertNewestFirst(b, bs[1..]);
      assert bs == [bs[0]] + bs[1..];
      assert forall x :: x in rest ==> x.createdAt <= bs[0].createdAt by {
        forall x | x in rest ensures x.createdAt <= bs[0].createdAt {
          if x != b {
            var k :| 0 <= k < |bs[1..]| && bs[1..][k] == x;
            assert bs[k + 1] == x;
          }
        }
      }
      [bs[0]] + rest
  }

  function SortNewestFirst(bs: seq<Batch>): (r: seq<Batch>)
    ensures NewestFirst(r)
    ensures multiset(r) == multiset(bs)
  {
    if bs == [] then []
    else
      assert bs == [bs[0]] + bs[1..];
      InsertNewestFirst(bs[0], SortNewestFirst(bs[1..]))
  }

  /** `get-batches`: every batch once, newest first (ties in either order). */
  function GetBatches(st: Store): (r: seq<Batch>)
    ensures NewestFirst(r)
    ensures multiset(r) == multiset(st.batches)
    ensures |r| == |st.batches|
  {
    var r := SortNewestFirst(st.batches);
    assert |r| == |multiset(r)| == |multiset(st.batches)| == |st.batches|;
    r
  }

  // ---------------------------------------------------------------- students

  /** `WHERE batchId = ?`: SQL equality, which never holds for NULL. */
  predicate InBatch(s: Student, batchId: Option<int>) {
    batchId.Some? && s.batchId == batchId
  }

  /** `get-students`: the students of one batch, in row order. */
  function GetStudents(st: Store, batchId: Option<int>): (r: seq<Student>)
    ensures forall s :: s in r <==> s in st.students && InBatch(s, batchId)
  {
    Filter((s: Student) => InBatch(s, batchId), st.students)
  }

  /** Every student row, in row order: what the records page's "fetch all"
      evidently wants. */
  function AllStudents(st: Store): (r: seq<Student>)
    ensures forall s :: s in r <==> s in st.students
  {
    Filter((s: Student) => true, st.students)
  }

  lemma AllStudentsIsTable(st: Store)
    ensures AllStudents(st) == st.students
  {
    FilterAll((s: Student) => true, st.students);
  }

  /** Asking for the students of the NULL batch returns nothing, even when
      the table is not empty. */
  lemma NullBatchSelectsNothing(st: Store)
    ensures GetStudents(st, None) == []
  {
    FilterNone((s: Student) => InBatch(s, None), st.students);
  }

  /** `update-student`: only `data` and `printStatus` of row `id` change. */
  function UpdateStudent(st: Store, id: int, data: Data, status: string): (r: Store)
    ensures r.profiles == st.profiles && r.layouts == st.layouts && r.batches == st.batches
    ensures r.nextStudentId == st.nextStudentId
    ensures |r.students| == |st.students|
    ensures forall i :: 0 <= i < |st.students| && st.students[i].id == id ==>
              r.students[i] == st.students[i].(data := data, printStatus := status)
    ensures forall i :: 0 <= i < |st.students| && st.students[i].id != id ==>
              r.students[i] == st.students[i]
  {
    st.(students := Map((s: Student) => if s.id == id then s.(data := data, printStatus := status) else s,
                        st.students))
  }

  lemma UpdateStudentWellFormed(st: Store, id: int, data: Data, status: string)
    requires WellFormed(st)
    ensures WellFormed(UpdateStudent(st, id, data, status))
  {
  }

  // ----------------------------------------------------------------- layouts

  /** `save-layout`: a new row. */
  function SaveLayout(st: Store, name: string, content: string): (r: Store)
    ensures r.layouts == st.layouts + [Layout(st.nextLayoutId, name, content)]
    ensures r.nextLayoutId == st.nextLayoutId + 1
    ensures r.profiles == st.profiles && r.batches == st.batches && r.students == st.students
  {
    st.(layouts := st.layouts + [Layout(st.nextLayoutId, name, content)],
        nextLayoutId := st.nextLayoutId + 1)
  }

  /** `delete-layout` as the layout library uses it: the row with that id goes. */
  function DeleteLayout(st: Store, id: int): (r: Store)
    ensures forall l :: l in r.layouts <==> l in st.layouts && l.id != id
    ensures r.nextLayoutId == st.nextLayoutId
    ensures r.profiles == st.profiles && r.batches == st.batches && r.students == st.students
  {
    st.(layouts := Filter((l: Layout) => l.id != id, st.layouts))
  }

  // ------------------------------------------------------------------ import

  /** `row.ADM_NO || row.admNo || 'TEMP-' + Math.random()`. */
  function AdmNoFor(row: Data, random: string): (a: string)
    ensures Truthy(row, "ADM_NO") ==> a == row["ADM_NO"]
    ensures !Truthy(row, "ADM_NO") && Truthy(row, "admNo") ==> a == row["admNo"]
    ensures !Truthy(row, "ADM_NO") && !Truthy(row, "admNo") ==> a == "TEMP-" + random
  {
    ValueOr(row, "ADM_NO", ValueOr(row, "admNo", "TEMP-" + random))
  }

  /** The open-file dialog: cancelled, or a workbook whose first sheet has
      these rows. */
  datatype Picked = Cancelled | Workbook(fileName: string, rows: seq<Data>)

  datatype ImportResult = ImportResult(batchId: int, count: nat)

  /** The student rows an import inserts, ids counting up from `firstId`. */
  function ImportedStudents(rows: seq<Data>, batchId: int, firstId: int, random: nat -> string)
    : (ss: seq<Student>)
    ensures |ss| == |rows|
    ensures forall k :: 0 <= k < |rows| ==>
              ss[k] == Student(firstId + k, Some(batchId), AdmNoFor(rows[k], random(k)), rows[k],
                               None, "pending", None)
  {
    seq(|rows|, k requires 0 <= k < |rows| =>
      Student(firstId + k, Some(batchId), AdmNoFor(rows[k], random(k)), rows[k], None, "pending", None))
  }

  /** `import-excel`: a new batch named after the file and the date, and one
      pending student per row. `random(k)` is the text of the k-th
      `Math.random()` and `today` the local date text. */
  function ImportExcel(st: Store, picked: Picked, today: string, now: int, random: nat -> string)
    : (res: (Store, Option<ImportResult>))
    ensures picked.Cancelled? ==> res == (st, None)
    ensures picked.Workbook? ==>
              && res.1 == Some(ImportResult(st.nextBatchId, |picked.rows|))
              && res.0.batches == st.batches
                   + [Batch(st.nextBatchId, "Batch " + picked.fileName + " (" + today + ")", now, None, None)]
              && res.0.students == st.students
                   + ImportedStudents(picked.rows, st.nextBatchId, st.nextStudentId, random)
              && res.0.profiles == st.profiles && res.0.layouts == st.layouts
  {
    match picked
    case Cancelled => (st, None)
    case Workbook(fileName, rows) =>
      var batchId := st.nextBatchId;
      var batch := Batch(batchId, "Batch " + fileName + " (" + today + ")", now, None, None);
      var added := ImportedStudents(rows, batchId, st.nextStudentId, random);
      (st.(batches := st.batches + [batch], students := st.students + added,
           nextBatchId := batchId + 1, nextStudentId := st.nextStudentId + |rows|),
       Some(ImportResult(batchId, |rows|)))
  }

  /** An import keeps the store well formed. */
  lemma ImportWellFormed(st: Store, picked: Picked, today: string, now: int, random: nat -> string)
    requires WellFormed(st)
    ensures WellFormed(ImportExcel(st, picked, today, now, random).0)
  {
    if picked.Workbook? {
      var b := Batch(st.nextBatchId, "Batch " + picked.fileName + " (" + today + ")", now, None, None);
      var added := ImportedStudents(picked.rows, st.nextBatchId, st.nextStudentId, random);
      AppendedBatchOk(st.batches, st.nextBatchId, b);
      AppendedStudentsOk(st.students, st.nextStudentId, st.nextBatchId, added);
    }
  }

  /** A batch appended under the counter's id keeps the batch table well
      formed, with the counter moved on. */
  lemma AppendedBatchOk(bs: seq<Batch>, next: int, b: Batch)
    requires BatchesOk(bs, next) && next >= 1 && b.id == next
    ensures BatchesOk(bs + [b], next + 1)
  {
    var r := bs + [b];
    forall i | 0 <= i < |r|
      ensures 1 <= r[i].id < next + 1
    {
      if i < |bs| {
        assert r[i] == bs[i];
      }
    }
    forall i, j | 0 <= i < j < |r|
      ensures r[i].id < r[j].id
    {
      assert r[i] == bs[i];
    }
  }

  /** Students appended with ids counting up from the counter, in a batch
      below the batch counter, keep the student table well formed. */
  lemma AppendedStudentsOk(ss: seq<Student>, next: int, batchId: int, added: seq<Student>)
    requires StudentsOk(ss, next, batchId) && next >= 1
    requires forall k :: 0 <= k < |added| ==> added[k].id == next + k && added[k].batchId == Some(batchId)
    ensures StudentsOk(ss + added, next + |added|, batchId + 1)
  {
    var r := ss + added;
    var n := |ss|;
    forall i | 0 <= i < |r|
      ensures 1 <= r[i].id < next + |added|
      ensures r[i].batchId.Some? ==> r[i].batchId.value < batchId + 1
    {
      if i >= n {
        assert r[i] == added[i - n];
      } else {
        assert r[i] == ss[i];
      }
    }
    forall i, j | 0 <= i < j < |r|
      ensures r[i].id < r[j].id
    {
      if j >= n {
        assert r[j] == added[j - n];
        if i >= n {
          assert r[i] == added[i - n];
        } else {
          assert r[i] == ss[i];
        }
      } else {
        assert r[i] == ss[i] && r[j] == ss[j];
      }
    }
  }

  /** After an import the new batch holds exactly one student per row, in
      row order. */
  lemma ImportCreatesOnePerRow(st: Store, fileName: string, rows: seq<Data>, today: string,
                               now: int, random: nat -> string)
    requires WellFormed(st)
    ensures GetStudents(ImportExcel(st, Workbook(fileName, rows), today, now, random).0,
                        Some(st.nextBatchId))
            == ImportedStudents(rows, st.nextBatchId, st.nextStudentId, random)
  {
    var r := ImportExcel(st, Workbook(fileName, rows), today, now, random).0;
    var added := ImportedStudents(rows, st.nextBatchId, st.nextStudentId, random);
    var p := (s: Student) => InBatch(s, Some(st.nextBatchId));
    assert r.students == st.students + added;
    FilterAppend(p, st.students, added);
    FilterNone(p, st.students);
    FilterAll(p, added);
  }

  // ------------------------------------------------------------ photo match

  /** `path.join(dir, file)` for a plain file name. */
  function JoinPath(dir: string, file: string): (path: string)
    ensures |path| >= |file| && path[|path| - |file|..] == file
  {
    if dir == [] then file
    else if dir[|dir| - 1] == '/' then dir + file
    else dir + "/" + file
  }

  /** What `match-photos` does to one row. */
  function LinkPhoto(s: Student, batchId: int, dir: string, files: seq<string>): (r: Student)
    ensures r.(photoPath := s.photoPath) == s
  {
    if InBatch(s, Some(batchId)) then
      match MatchFile(files, s.admNo)
      case Some(f) => s.(photoPath := Some(JoinPath(dir, f)))
      case None => s
    else s
  }

  predicate GetsPhoto(s: Student, batchId: int, files: seq<string>) {
    InBatch(s, Some(batchId)) && MatchFile(files, s.admNo).Some?
  }

  /** `match-photos`: `listing` is the directory's file names, or `None`
      when the directory does not exist. Returns the new store and the
      matched count. */
  method MatchPhotos(st: Store, batchId: int, dir: string, listing: Option<seq<string>>)
    returns (r: Store, matched: nat)
    ensures listing.None? ==> r == st && matched == 0
    ensures listing.Some? ==>
              && r == st.(students := Map((s: Student) => LinkPhoto(s, batchId, dir, listing.value),
                                          st.students))
              && matched == CountIf((s: Student) => GetsPhoto(s, batchId, listing.value), st.students)
    ensures matched <= |GetStudents(st, Some(batchId))|
  {
    if listing.None? {
      return st, 0;
    }
    var files := listing.value;
    var out: seq<Student> := [];
    matched := 0;
    var i := 0;
    while i < |st.students|
      invariant 0 <= i <= |st.students|
      invariant |out| == i
      invariant forall k :: 0 <= k < i ==> out[k] == LinkPhoto(st.students[k], batchId, dir, files)
      invariant matched + CountIf((s: Student) => GetsPhoto(s, batchId, files), st.students[i..])
                == CountIf((s: Student) => GetsPhoto(s, batchId, files), st.students)
    {
      var s := st.students[i];
      assert st.students[i..][1..] == st.students[i + 1..];
      if InBatch(s, Some(batchId)) {
        var m := MatchFile(files, s.admNo);
        if m.Some? {
          s := s.(photoPath := Some(JoinPath(dir, m.value)));
          matched := matched + 1;
        }
      }
      out := out + [s];
      i := i + 1;
    }
    r := st.(students := out);
    MatchedAtMostBatch(st.students, batchId, files);
  }

  /** Matching never counts more students than the batch has. */
  lemma {:induction false} MatchedAtMostBatch(ss: seq<Student>, batchId: int, files: seq<string>)
    ensures CountIf((s: Student) => GetsPhoto(s, batchId, files), ss)
            <= |Filter((s: Student) => InBatch(s, Some(batchId)), ss)|
  {
    if ss != [] {
      MatchedAtMostBatch(ss[1..], batchId, files);
    }
  }

  /** Students of other batches are untouched, and a batch student whose
      admission number stems no file keeps the photo it had. */
  lemma LinkPhotoFrame(s: Student, batchId: int, dir: string, files: seq<string>)
    ensures !InBatch(s, Some(batchId)) ==> LinkPhoto(s, batchId, dir, files) == s
    ensures InBatch(s, Some(batchId)) && MatchFile(files, s.admNo).None? ==>
              LinkPhoto(s, batchId, dir, files) == s
    ensures GetsPhoto(s, batchId, files) ==>
              var f := MatchFile(files, s.admNo).value;
              && LinkPhoto(s, batchId, dir, files).photoPath == Some(JoinPath(dir, f))
              && Stem(f) == s.admNo
  {
  }
}

=== FILE: student_data.dfy ===
/** The student records page: which rows it lists, its search box, the
    JSON edit mode and the per-row labels. */
module StudentData {
  import opened Common
  import opened Text
  import opened Records
  import opened Store

  // --------------------------------------------------------------- listing

  /** The page's load as written: `get-students` with a null batch id. The
      query compares `batchId = NULL`, which no row satisfies. */
  function LoadRecordsAsWritten(st: Store): (r: seq<Student>)
    ensures r == []
  {
    NullBatchSelectsNothing(st);
    GetStudents(st, None)
  }

  /** Even a table with students lists none of them. */
  lemma RecordsPageListsNothing(s: Student)
    ensures var st := InitialStore().(students := [s]);
            |st.students| == 1 && LoadRecordsAsWritten(st) == []
  {
  }

  /** The load the page means ("fetching all"): every student row. */
  function LoadRecords(st: Store): (r: seq<Student>)
    ensures r == st.students
  {
    AllStudentsIsTable(st);
    AllStudents(st)
  }

  // ---------------------------------------------------------------- search

  /** `data.NAME || ''`. */
  function NameOrEmpty(s: Student): string {
    ValueOr(s.data, "NAME", "")
  }

  /** The lower-cased term occurs in the lower-cased admission number or
      name. */
  predicate RecordMatches(s: Student, term: string) {
    Includes(Lower(s.admNo), Lower(term)) || Includes(Lower(NameOrEmpty(s)), Lower(term))
  }

  /** `filteredStudents`. */
  function FilterStudents(students: seq<Student>, term: string): (r: seq<Student>)
    ensures forall s :: s in r <==>
              (s in students
               && (Contains(Lower(s.admNo), Lower(term)) || Contains(Lower(NameOrEmpty(s)), Lower(term))))
    ensures |r| <= |students|
  {
    Filter((s: Student) => RecordMatches(s, term), students)
  }

  lemma FilterStudentsInOrder(a: seq<Student>, b: seq<Student>, term: string)
    ensures FilterStudents(a + b, term) == FilterStudents(a, term) + FilterStudents(b, term)
  {
    FilterAppend((s: Student) => RecordMatches(s, term), a, b);
  }

  /** An empty search lists every record. */
  lemma EmptySearchKeepsAllStudents(students: seq<Student>)
    ensures FilterStudents(students, "") == students
  {
    forall s | s in students ensures RecordMatches(s, "") {
      IncludesEmpty(Lower(s.admNo));
    }
    FilterAll((s: Student) => RecordMatches(s, ""), students);
  }

  // ------------------------------------------------------------- edit mode

  /** The row being edited, if any, and the JSON text in its text area. */
  datatype EditState = EditState(editingId: Option<int>, buffer: string)

  const NOT_EDITING: EditState := EditState(None, "")

  /** `startEdit`: `stringify` is `JSON.stringify(data, null, 2)`. */
  function StartEdit(e: EditState, s: Student, stringify: Data -> string): (r: EditState)
    ensures r.editingId == Some(s.id)
    ensures r.buffer == stringify(s.data)
  {
    EditState(Some(s.id), stringify(s.data))
  }

  function TypeText(e: EditState, text: string): (r: EditState)
    ensures r.editingId == e.editingId && r.buffer == text
  {
    e.(buffer := text)
  }

  function CancelEdit(e: EditState): (r: EditState)
    ensures r.editingId.None? && r.buffer == e.buffer
  {
    e.(editingId := None)
  }

  /** What `saveEdit` leads to: the store, the edit state and whether the
      "Invalid JSON data" alert shows. */
  datatype SaveResult = SaveResult(store: Store, edit: EditState, alerted: bool)

  const PENDING: string := "pending"

  /** `saveEdit`. `parse` is `JSON.parse`, `None` when it throws. */
  function SaveEdit(st: Store, e: EditState, parse: string -> Option<Data>): (r: SaveResult)
    ensures e.editingId.None? ==> r == SaveResult(st, e, false)
    ensures e.editingId.Some? && parse(e.buffer).None? ==> r == SaveResult(st, e, true)
    ensures e.editingId.Some? && parse(e.buffer).Some? ==>
              !r.alerted && r.edit.editingId.None?
              && r.store == st.(students := r.store.students)
              && |r.store.students| == |st.students|
              && (forall i :: 0 <= i < |st.students| && st.students[i].id == e.editingId.value ==>
                    r.store.students[i]
                    == st.students[i].(data := parse(e.buffer).value, printStatus := PENDING))
              && (forall i :: 0 <= i < |st.students| && st.students[i].id != e.editingId.value ==>
                    r.store.students[i] == st.students[i])
  {
    if e.editingId.None? then SaveResult(st, e, false)
    else match parse(e.buffer)
      case None => SaveResult(st, e, true)
      case Some(d) => SaveResult(UpdateStudent(st, e.editingId.value, d, PENDING), e.(editingId := None), false)
  }

  /** Opening a row and saving it untouched keeps its data and marks it
      pending, provided the JSON text reads back as the data. */
  lemma EditWithoutChangesKeepsData(st: Store, e: EditState, k: nat,
                                    stringify: Data -> string, parse: string -> Option<Data>)
    requires k < |st.students|
    requires parse(stringify(st.students[k].data)) == Some(st.students[k].data)
    ensures var r := SaveEdit(st, StartEdit(e, st.students[k], stringify), parse);
            !r.alerted && r.edit.editingId.None?
            && r.store.students[k] == st.students[k].(printStatus := PENDING)
  {
  }

  // ---------------------------------------------------------------- labels

  /** One row of the records table. */
  datatype RecordRow = RecordRow(admNo: string, name: string, photo: string, status: string, editing: bool)

  function RowFor(s: Student, e: EditState): (row: RecordRow)
    ensures row.admNo == s.admNo
    ensures row.name == ValueOr(s.data, "NAME", "N/A")
    ensures row.photo == "Linked" <==> HasPhoto(s)
    ensures row.photo == "Linked" || row.photo == "Missing"
    ensures row.status == "Printed" <==> s.printStatus == "printed"
    ensures row.status == "Printed" || row.status == "Pending"
    ensures row.editing <==> e.editingId == Some(s.id)
  {
    RecordRow(s.admNo, ValueOr(s.data, "NAME", "N/A"),
              if HasPhoto(s) then "Linked" else "Missing",
              if s.printStatus == "printed" then "Printed" else "Pending",
              e.editingId == Some(s.id))
  }

  /** The table over the loaded records: one row per record matching the
      search, in order. */
  function Table(records: seq<Student>, term: string, e: EditState): (rows: seq<RecordRow>)
    ensures |rows| == |FilterStudents(records, term)|
    ensures forall i :: 0 <= i < |rows| ==> rows[i] == RowFor(FilterStudents(records, term)[i], e)
    ensures term == "" ==> |rows| == |records|
  {
    EmptySearchKeepsAllStudents(records);
    Map((s: Student) => RowFor(s, e), FilterStudents(records, term))
  }

  /** As written, the page's table is always empty; over the intended load
      it has a row for every student when the search is empty. */
  lemma TableAsWrittenIsEmpty(st: Store, term: string, e: EditState)
    ensures Table(LoadRecordsAsWritten(st), term, e) == []
    ensures |Table(LoadRecords(st), "", e)| == |st.students|
  {
  }
}

=== FILE: text.dfy ===
/** String helpers the pages share: ASCII case folding, substring search,
    the JavaScript `\s` class and decimal rendering of counters. */
module Text {

  /** `toLowerCase` on the ASCII letters; other characters are kept. */
  function LowerChar(c: char): (r: char)
    ensures 'A' <= c <= 'Z' ==> r as int == c as int + 32
    ensures !('A' <= c <= 'Z') ==> r == c
  {
    if 'A' <= c <= 'Z' then (c as int + 32) as char else c
  }

  function Lower(s: string): (r: string)
    ensures |r| == |s|
    ensures forall i :: 0 <= i < |s| ==> r[i] == LowerChar(s[i])
  {
    seq(|s|, i requires 0 <= i < |s| => LowerChar(s[i]))
  }

  predicate IsPrefix(p: string, s: string) {
    |p| <= |s| && s[..|p|] == p
  }

  /** `s.includes(t)`: `t` occurs in `s` at some position. */
  predicate Contains(s: string, t: string) {
    exists i :: 0 <= i <= |s| - |t| && IsPrefix(t, s[i..])
  }

  /** Executable search for `t` from position `k` on. */
  function ContainsFrom(s: string, t: string, k: nat): (b: bool)
    requires k <= |s|
    ensures b <==> exists i :: k <= i <= |s| - |t| && IsPrefix(t, s[i..])
    decreases |s| - k
  {
    if IsPrefix(t, s[k..]) then true
    else if k == |s| then false
    else ContainsFrom(s, t, k + 1)
  }

  function Includes(s: string, t: string): (b: bool)
    ensures b <==> Contains(s, t)
  {
    ContainsFrom(s, t, 0)
  }

  /** Every string includes the empty string. */
  lemma IncludesEmpty(s: string)
    ensures Includes(s, "")
  {
    assert IsPrefix("", s[0..]);
  }

  /** The characters JavaScript's `\s` matches (WhiteSpace and LineTerminator). */
  predicate IsWhitespace(c: char) {
    c == '\t' || c == '\n' || c == '\U{B}' || c == '\U{C}' || c == '\r' || c == ' '
    || c == '\U{A0}' || c == '\U{1680}' || ('\U{2000}' <= c <= '\U{200A}')
    || c == '\U{2028}' || c == '\U{2029}' || c == '\U{202F}' || c == '\U{205F}'
    || c == '\U{3000}' || c == '\U{FEFF}'
  }

  predicate NoWhitespace(s: string) {
    forall i :: 0 <= i < |s| ==> !IsWhitespace(s[i])
  }

  predicate IsDigit(c: char) {
    '0' <= c <= '9'
  }

  function DigitChar(d: nat): (c: char)
    requires d < 10
    ensures IsDigit(c) && c as int - '0' as int == d
  {
    ('0' as int + d) as char
  }

  /** The decimal text of `n`, as a template literal prints a non-negative integer. */
  function NatToString(n: nat): (s: string)
    ensures |s| >= 1
    ensures forall i :: 0 <= i < |s| ==> IsDigit(s[i])
    ensures n >= 10 ==> s[0] != '0'
    decreases n
  {
    if n < 10 then [DigitChar(n)] else NatToString(n / 10) + [DigitChar(n % 10)]
  }

  /** Reads decimal digits back into a number. */
  function DigitsValue(s: string): (n: nat)
    requires forall i :: 0 <= i < |s| ==> IsDigit(s[i])
  {
    if s == [] then 0
    else
      assert IsDigit(s[|s| - 1]);
      DigitsValue(s[..|s| - 1]) * 10 + (s[|s| - 1] as int - '0' as int)
  }

  /** The decimal rendering reads back as the number it renders. */
  lemma {:induction false} NatToStringRoundTrip(n: nat)
    ensures DigitsValue(NatToString(n)) == n
    decreases n
  {
    if n >= 10 {
      var s := NatToString(n);
      assert s[..|s| - 1] == NatToString(n / 10);
      NatToStringRoundTrip(n / 10);
    }
  }
}

=== FILE: units.dfy ===
/** Physical units of the card printer: millimetres and 300-DPI pixels, the
    CR80 card, the A4 page and the two tray anchors. Lengths are exact
    rationals; `Math.round` appears only in the two card pixel constants. */
module Units {

  const DPI: real := 300.0
  const MM_PER_INCH: real := 25.4

  /** Pixels per millimetre, 300 / 25.4. */
  const PX_PER_MM: real := DPI / MM_PER_INCH

  function MmToPx(mm: real): (px: real)
    ensures px * MM_PER_INCH == mm * DPI
  {
    mm * PX_PER_MM
  }

  function PxToMm(px: real): (mm: real)
    ensures mm * DPI == px * MM_PER_INCH
  {
    px / PX_PER_MM
  }

  /** `Math.round`: halves round up, towards positive infinity. */
  function Round(x: real): (n: int)
    ensures n as real - 0.5 <= x < n as real + 0.5
  {
    (x + 0.5).Floor
  }

  const CR80_WIDTH_MM: real := 86.0
  const CR80_HEIGHT_MM: real := 54.0

  const CR80_WIDTH_PX: int := Round(MmToPx(CR80_WIDTH_MM))
  const CR80_HEIGHT_PX: int := Round(MmToPx(CR80_HEIGHT_MM))

  const SLOT1_X_MM: real := 31.8
  const SLOT1_Y_MM: real := 12.3
  /** The gap between the two card pockets of the tray. */
  const SLOT_GAP_MM: real := 31.5
  const SLOT2_X_MM: real := SLOT1_X_MM
  const SLOT2_Y_MM: real := SLOT1_Y_MM + CR80_HEIGHT_MM + SLOT_GAP_MM

  const A4_WIDTH_MM: real := 210.0
  const A4_HEIGHT_MM: real := 297.0

  /** Converting to pixels and back gives the original length. */
  lemma MmPxRoundTrip(mm: real)
    ensures PxToMm(MmToPx(mm)) == mm
  {
  }

  /** Converting to millimetres and back gives the original pixel count. */
  lemma PxMmRoundTrip(px: real)
    ensures MmToPx(PxToMm(px)) == px
  {
  }

  /** The conversion is linear: it maps 0 to 0 and sums to sums. */
  lemma MmToPxLinear(a: real, b: real)
    ensures MmToPx(0.0) == 0.0
    ensures MmToPx(a + b) == MmToPx(a) + MmToPx(b)
    ensures MmToPx(a - b) == MmToPx(a) - MmToPx(b)
  {
  }

  /** The conversion is strictly increasing. */
  lemma MmToPxIncreasing(a: real, b: real)
    ensures a < b <==> MmToPx(a) < MmToPx(b)
  {
  }

  /** 86 mm is 1015.748 px to within 0.001, which rounds to 1016. */
  lemma CardWidthPx()
    ensures 1015.747 < MmToPx(CR80_WIDTH_MM) < 1015.749
    ensures CR80_WIDTH_PX == 1016
  {
    var w := MmToPx(CR80_WIDTH_MM);
    assert w == 25800.0 / 25.4;
    assert 1016.0 <= w + 0.5 < 1017.0;
  }

  /** 54 mm is about 637.8 px, which rounds to 638. */
  lemma CardHeightPx()
    ensures 637.7 < MmToPx(CR80_HEIGHT_MM) < 637.8
    ensures CR80_HEIGHT_PX == 638
  {
    var h := MmToPx(CR80_HEIGHT_MM);
    assert h == 16200.0 / 25.4;
    assert 638.0 <= h + 0.5 < 639.0;
  }

  /** Slot 2 sits straight below slot 1: same X, one card height plus the
      gap further down, so the two pockets never overlap. */
  lemma SlotAnchors()
    ensures SLOT2_X_MM == SLOT1_X_MM
    ensures SLOT2_Y_MM - SLOT1_Y_MM == CR80_HEIGHT_MM + SLOT_GAP_MM
    ensures SLOT1_Y_MM + CR80_HEIGHT_MM < SLOT2_Y_MM
  {
  }

  /** Both pockets, uncorrected, lie inside the A4 page. */
  lemma SlotsInsideA4()
    ensures 0.0 <= SLOT1_X_MM && SLOT1_X_MM + CR80_WIDTH_MM <= A4_WIDTH_MM
    ensures 0.0 <= SLOT1_Y_MM && SLOT2_Y_MM + CR80_HEIGHT_MM <= A4_HEIGHT_MM
  {
  }
}
